=== FILE: README.md ===
# AgriSmart core in Dafny

AgriSmart is a Streamlit farming advisor. A farmer picks a topic, types a
question and presses Get Advice, Simplify or Expand. The app then builds a
prompt from the topic's template, the saved farmer profile and a modifier.
It sends that prompt, with the last six messages of the conversation, to the
OpenRouter chat-completions endpoint and reads the answer back, streamed or
in one piece. Finally it records the exchange and the usage counters, turns
the answer's checkbox or bullet lines into a ticking checklist, and offers
the advice as a markdown export.

This project models that core as pure Dafny functions over immutable data:

- `Prompts` holds the eight prompt templates, the example questions and
  `get_prompt_template`. It also models `str.format` on a template.
- `Completion` models `call_openrouter_api`:
  - the message stack and the request;
  - the reading of one streamed event;
  - the server-sent-event loop, as a fold with a line-by-line reference;
  - the non-streamed reply;
  - every path that ends in `None`.
- `Checklist` models `extract_checklist_items`. It is a left-to-right,
  non-overlapping scan in the manner of `re.findall`, with an independent
  line-by-line reference.
- `Utils` models the API-key check, the token estimate and
  `export_to_markdown`.
- `Session` models the session state and one pass of the page. The
  actions are Save Profile, Clear History and the three query buttons.
  It also states the session invariant that keeps checklist keys fresh.
- `PyStr` models the Python `str` builtins the code relies on: `isspace`,
  `split()`, `strip()`, `startswith`, `s[-n:]` and `str(n)`.
- `Wrappers` holds `Option` and a few sequence facts.

Things outside the program become parameters of the model:

- The network is a function from the request to an `HttpOutcome`: a
  transport failure, or a status, a body and the body's lines already
  decoded as UTF-8 (`None` for a line that does not decode). A `None`
  line also stands for an error that `iter_lines` raises partway through
  the stream: both reach the outer `except` (app.py:120-122) and the call
  gives `None`.
- `json.loads` is a function that returns `None` where the parser raises.
- The checkbox widget is a function from a widget key and an initial value
  to the mark the user leaves.
- The clock readings are strings.
- The system instruction of config.py is a string.

## Model

| member | source | states |
|---|---|---|
| `Utils.ValidateApiKeyFormat` | utils.py:5-6 | A key passes exactly when it has at least 21 characters and none of them is a space |
| `Utils.ApiKeyAcceptance` | utils.py:5-6 | The length boundary of `len(key) > 20`: every 20-character key is rejected, and a 21-character key without a space is accepted |
| `Utils.ApiKeyWhitespaceExamples` | utils.py:5-6 | Only the space character is looked at: a tab inside a key leaves it valid, a space makes it invalid |
| `Utils.EstimateTokens` | utils.py:8-9 | The estimate is 1.5 per whitespace-separated word, never negative, and zero exactly for blank text |
| `Utils.EstimateTokensJoin` | utils.py:8-9 | Estimates add up over two texts joined by one whitespace character |
| `Utils.ChecklistSection` | utils.py:27-30 | The checklist section is empty exactly when the checklist is `None` or empty; otherwise it opens with the `### Checklist:` heading |
| `Utils.ExportToMarkdown` | utils.py:21-33 | `export_to_markdown`: the document layout is stated by `ExportLayout`, the question and answer sections by `ExportShowsQuestionAndAnswer`, and the checklist it carries by `ExportedChecklistRoundTrip` |
| `Utils.ExportLayout` | utils.py:21-33 | The export opens with the title, then the topic/question/answer preamble, then the checklist section, and ends with the generation line |
| `Utils.AppendCheckboxes` | utils.py:29-30 | The loop appends one `- [ ] item` line per item, in order, and nothing else |
| `Utils.ExportShowsQuestionAndAnswer` | utils.py:22-25 | The topic, and the question and the answer under their headings, appear verbatim at fixed positions of the export |
| `Utils.CheckboxLinesRoundTrip` | utils.py:11-30 | Reading back rendered `- [ ] item` lines line by line gives exactly the rendered items |
| `Utils.ExportedChecklistRoundTrip` | utils.py:11-30 | `extract_checklist_items` on an exported checklist section returns the very items exported |
| `PyStr.IsSpace` | utils.py:9 | The whitespace of `str.isspace`, which `split()` and `strip()` cut on; `IsSpaceExamples` pins the table on the characters a reader might doubt |
| `PyStr.IsSpaceExamples` | utils.py:9 | Tab to carriage return, the four separators 0x1C-0x1F, NEL, the no-break, em and ideographic spaces are whitespace; the letters `a`, `Z` and `é`, the underscore, backspace, shift-out, the zero-width space, the byte order mark and the Mongolian vowel separator are not |
| `PyStr.SplitCountsWordStarts` | utils.py:9 | `len(text.split())` is the number of non-whitespace characters that follow whitespace or the start of the text |
| `PyStr.Split` | utils.py:9 | `split()` gives non-empty words without whitespace, and no words exactly for blank text |
| `PyStr.Strip` | app.py:99 | `strip()` neither starts nor ends with whitespace, and everything it cuts off on either side is whitespace |
| `PyStr.LastN` | app.py:69 | `s[-6:]` has `min(6, len(s))` elements and is the end of `s` |
| `PyStr.NatToStringInjective` | app.py:292 | Distinct history lengths print as distinct decimal strings |
| `Checklist.FindAll` | utils.py:12-13 | Every captured item is non-empty and lies within one line |
| `Checklist.ExtractChecklistItems` | utils.py:11-19 | All checkbox items when there is one; otherwise the first `min(10, n)` bullet items; `None` exactly when there are neither, so never an empty list |
| `Checklist.FindAllByLines` | utils.py:12-13 | The regex scan over the whole text equals the line-by-line reading, with at most one item per line running to the line's end |
| `Checklist.ExtractByLines` | utils.py:11-19 | `extract_checklist_items` stated through the lines of the text: all checkbox lines, else at most ten bullet lines, else `None` |
| `Checklist.CheckboxLineItem` | utils.py:12 | A `- [ ] item` line yields `item` |
| `Checklist.NoHyphenNoCheckbox` | utils.py:12 | A line without a hyphen yields no checkbox item |
| `Checklist.TwoCheckboxLines` | utils.py:11-15 | Two checkbox lines yield exactly their two items, in order |
| `Checklist.TwoCheckboxExample` | utils.py:11-15 | The answer `- [ ] Test soil pH` / `- [ ] Apply fertilizer` yields those two steps |
| `Checklist.PatternsSingleLine` | utils.py:12-18 | Neither pattern's lead characters include a line break |
| `Prompts.ExamplesCoverTopics` | prompts.py:3-36 | The example table has exactly the eight topic keys of the template table |
| `Prompts.TwoExamplesPerTopic` | prompts.py:3-36 | Every topic has two example questions |
| `Prompts.TemplateFor` | prompts.py:39-50 | Each of the eight keys selects its own template; any other key selects `GENERAL_GUIDE` |
| `Prompts.GetPromptTemplate` | prompts.py:39-50 | An unknown topic gets the general template's text, without an error |
| `Prompts.Format` | app.py:258 | `str.format` leaves text without braces unchanged |
| `Prompts.FormatOnce` | app.py:258 | Formatting text with one `{query}` field and no other brace puts the query in place of the field and keeps the rest verbatim |
| `Prompts.CropGuideWellFormed` | prompts.py:53-65 | `CROP_GUIDE` has no brace outside its one field |
| `Prompts.SoilGuideWellFormed` | prompts.py:67-77 | `SOIL_GUIDE` has no brace outside its one field |
| `Prompts.PestGuideWellFormed` | prompts.py:79-89 | `PEST_GUIDE` has no brace outside its one field |
| `Prompts.IrrigationGuideWellFormed` | prompts.py:91-101 | `IRRIGATION_GUIDE` has no brace outside its one field |
| `Prompts.WeatherGuideWellFormed` | prompts.py:103-112 | `WEATHER_GUIDE` has no brace outside its one field |
| `Prompts.YieldGuideWellFormed` | prompts.py:114-124 | `YIELD_GUIDE` has no brace outside its one field |
| `Prompts.MarketGuideWellFormed` | prompts.py:126-136 | `MARKET_GUIDE` has no brace outside its one field |
| `Prompts.GeneralGuideWellFormed` | prompts.py:138-142 | `GENERAL_GUIDE` has no brace outside its one field |
| `Prompts.TemplateForWellFormed` | prompts.py:39-50 | Every template a topic can select is well formed |
| `Prompts.TemplateFormats` | app.py:257-258 | For every topic, known or not, formatting the template never raises, and the query sits between the template's own text before and after the field |
| `Prompts.TemplateHasOneField` | prompts.py:53-142 | Every template has exactly one `{`, the one that opens `{query}` |
| `Completion.BuildMessages` | app.py:62-71 | The system message comes first and the user's prompt last; between them come the last `min(6, n)` context messages in order, or none for a missing or empty context |
| `Completion.BuildRequest` | app.py:55-80 | The bearer-token header, the endpoint, temperature 0.7, top_p 0.9, and the caller's model, max tokens, stream flag and message stack |
| `Completion.EventEffect` | app.py:102-111 | An event's text is appended exactly when it is an object holding `choices`, that is a non-empty list whose first item is an object, its `delta` (an empty object when missing) is an object and its `content` (the empty string when missing) is a string, and the appended text is that content; nothing is looked up exactly when `"choices" in chunk` is false, and every other event raises |
| `Completion.ContentDeltaAppends` | app.py:105-108 | A standard streamed event `{"choices": [{"delta": {"content": t}}]}` appends `t`, whatever other keys it holds |
| `Completion.NoContentAppendsNothing` | app.py:106-108 | A first choice without a delta, or a delta without content (the role-only opening event), appends the empty string |
| `Completion.NullDeltaOrContentSkipped` | app.py:106-111 | A `null` delta or a `null` content raises inside the `try` and the line adds nothing |
| `Completion.NoChoicesAppendsNothing` | app.py:105 | An event object without `choices` adds nothing |
| `Completion.Classify` | app.py:93-100 | Blank lines, lines without `data: ` and `[DONE]` (after stripping) are told apart exactly; a data line is the prefix plus its payload |
| `Completion.BeforeDone` | app.py:93-100 | The lines read are a prefix, none of them `[DONE]`, and reading stops only at a `[DONE]` |
| `Completion.ConsumeStream` | app.py:90-114 | The streaming loop returns exactly the reference answer: the deltas of the data events before the first `[DONE]`, in order |
| `Completion.StreamFoldIsStreamedAnswer` | app.py:93-111 | The line-by-line fold equals the reference answer |
| `Completion.BeforeDoneAll` | app.py:93-100 | Every line is read exactly when none of them is `[DONE]` |
| `Completion.StreamFoldConcat` | app.py:93-111 | Two stretches of lines fold to the concatenation of their folds, unless the first stretch holds a `[DONE]`, which ends it |
| `Completion.LinesAfterDoneIgnored` | app.py:99-100 | Nothing after the first `[DONE]` reaches the answer |
| `Completion.SkippedLine` | app.py:94-111 | A blank line, a non-data line, or an event that fails to parse or to yield a delta leaves the answer unchanged |
| `Completion.PartialAnswerIsPrefix` | app.py:108-109 | The text shown while streaming is always a prefix of the final answer |
| `Completion.DecodedPrefix` | app.py:93-95 | The lines read before a decoding failure are exactly the decodable lines in front of it |
| `Completion.StreamResult` | app.py:93-114 | The streaming branch after a 200 status: `StreamResultAllDecoded` states the answer when every line decodes, `UndecodableLineFails` that an undecodable line before `[DONE]` gives `None`, and `DoneBeforeUndecodable` that one after `[DONE]` is never read |
| `Completion.StreamResultAllDecoded` | app.py:93-114 | When every line decodes, the streamed branch returns the reference answer |
| `Completion.UndecodableLineFails` | app.py:93-122 | A line that does not decode, reached before any `[DONE]`, makes the whole call return `None` |
| `Completion.DoneBeforeUndecodable` | app.py:93-100 | After `[DONE]`, later lines cannot spoil the answer, decodable or not |
| `Completion.BeforeDoneStops` | app.py:99-100 | Reading stops at or before a `[DONE]` line: the lines read are a prefix of those before it, so it is never included |
| `Completion.MessageContent` | app.py:118 | A non-streamed reply gives a value exactly when the `choices[0].message.content` lookups succeed with a string, and then gives that string |
| `Completion.CallApi` | app.py:46-122 | `call_openrouter_api`: the request it sends is stated by `BuildRequest` and `BuildMessages`, and how each network outcome ends by `CallApiOutcomes` and `StreamedCallAnswer` |
| `Completion.CallApiOutcomes` | app.py:82-122 | A transport failure gives `None`, and so does a streamed reply whose status is not 200; a streamed 200 reply gives what its lines give; a plain reply gives its message content, or `None` when the body does not parse |
| `Completion.StreamedCallAnswer` | app.py:83-114 | A streamed 200 reply whose lines all decode yields exactly the deltas before the first `[DONE]` |
| `Session.Init` | app.py:30-40 | A key already in the session keeps its value; a missing one gets its default; a first visit gets the empty state |
| `Session.InitKeepsSession` | app.py:30-42 | Running the initialisation on every rerun never disturbs an existing session |
| `Session.KeyWarning` | app.py:136-137 | The warning shows exactly for a non-empty key of at most 20 characters or holding a space |
| `Session.FinalPrompt` | app.py:244-258 | The prompt is the template's text before the field, the query, the text after the field, the profile block and the modifier |
| `Session.ModifierChoice` | app.py:238-242 | Expand overrides Simplify, and there is no modifier exactly when neither was pressed |
| `Session.PromptWithoutProfile` | app.py:244-258 | Without a saved profile the prompt is the formatted template followed by the modifier alone |
| `Session.PromptCarriesQuery` | app.py:256-258 | The question reaches the prompt verbatim, right after the template's lead-in |
| `Session.ContextSent` | app.py:260-264 | With context on, the last six history messages are sent in order between the system message and the prompt; with it off, or with no history yet, only those two |
| `Session.RenderChecklist` | app.py:297-303 | The checkbox loop fails with `IndexError` exactly when the stored entry is shorter than the checklist; each rendered mark is what its widget shows, and later marks are kept |
| `Session.RenderIsTicked` | app.py:297-303 | The marks the loop stores are the reference tick marks |
| `Session.CountTrue` | app.py:305 | The count is the number of `True` marks (their multiplicity in the marks), never more than the number of boxes |
| `Session.TopicMapCoversTemplates` | app.py:184-200 | The selector's eight labels map onto exactly the template table's keys, none of which holds `_` |
| `Session.ValidationOrder` | app.py:232-236 | Without a button nothing happens; an empty question is reported before a missing key; neither report calls the API or changes the session |
| `Session.SubmittedQuestion` | app.py:232-277 | With both fields filled, the composed prompt goes to the API, whether or not the key passes the format check |
| `Session.NoAnswerKeepsState` | app.py:279 | A missing or empty answer leaves the session exactly as it was |
| `Session.AnswerRecorded` | app.py:279-285 | A non-empty answer adds one call and its tokens, appends the question and then the answer to the history, and changes no checklist entry but its own |
| `Session.ShowAnswerFrame` | app.py:287-307 | The checklist block touches only the entry under the answer's key, which exists afterwards exactly when it existed before or the answer has a checklist |
| `Session.ChecklistEntry` | app.py:292-303 | A missing entry is created all unticked; an existing one is never reset, and each box starts from its stored mark |
| `Session.SaveProfileOnly` | app.py:158-165 | Save Profile replaces the profile, stamped with the time, and changes nothing else |
| `Session.ClearHistoryKeepsCounters` | app.py:173-176 | Clear History empties the history and the checklists, and keeps the profile and the usage counters |
| `Session.CountersGrow` | app.py:279-281 | The usage counters never decrease, and one pass makes at most one call |
| `Session.KeySplits` | app.py:292 | In a key made from an underscore-free topic, the first `_` ends the topic |
| `Session.KeyInjective` | app.py:292 | Keys from underscore-free topics determine their topic and their history length |
| `Session.FreshConsistent` | app.py:30-40 | A first visit satisfies the session invariant |
| `Session.NextKeyFresh` | app.py:292-295 | In a consistent session, the key of the next answer is not yet in use |
| `Session.Step` | app.py:158-303 | One pass of the page: saving the profile is stated by `SaveProfileOnly`, clearing by `ClearHistoryKeepsCounters`, a submitted question by `SubmittedQuestion`, `NoAnswerKeepsState` and `AnswerRecorded`, and the checklist bookkeeping it keeps by `StepConsistent` and `RunConsistent` |
| `Session.StepConsistent` | app.py:279-303 | Every pass keeps the session invariant: the history alternates question and answer, and every key was made from a history length no greater than the current one |
| `Session.FreshKeyShown` | app.py:294-307 | With a fresh key, the checklist block neither indexes past the stored entry nor reports progress above one |
| `Session.NoChecklistFailure` | app.py:292-307 | In a consistent session, the checklist block of a pass never fails |
| `Session.RunConsistent` | app.py:292-307 | From a first visit, for any sequence of actions with topics from the selector, the session stays consistent and no pass hits a checklist failure, however often the history is cleared |

## Left out

- `Prompts.Format` models only bare `{query}` fields and doubled braces.
  A field with a conversion, format spec, index or attribute (`{query!r}`,
  `{query:>5}`, `{query[0]}`, `{query.upper}`) gives `None` in the model,
  where Python would format it. The templates hold no such field.
- The Streamlit page itself is not modelled: layout, CSS, spinners, the
  metrics, and the download button's file name and MIME type. Only the
  values these widgets read or show are kept.
- The quick-query example buttons are not modelled. They only pre-fill the
  question box, so the model takes the question as an input.
- `format_markdown_response` is left out: app.py imports it but never
  calls it.
- The HTTP exchange, `requests` and UTF-8 decoding are abstracted. They
  become the `respond` parameter, which returns lines already decoded or
  marked undecodable. Headers are kept only as the bearer string.
- `json.loads` is abstracted as the `parse` parameter, and
  `response.json()` is `parse` applied to the body.
- `datetime.now()` is abstracted: the two clock readings are input strings.
- config.py is not part of this model. `SYSTEM_INSTRUCTIONS` is a parameter.
- Progressive rendering of the streamed text is not modelled (the `▌`
  cursor and the placeholder updates). `PartialAnswerIsPrefix` states what
  the shown text is.
- `Utils.EstimateTokens` uses exact reals rather than Python floats, and
  so does the token counter. `total_tokens_used` starts as the integer 0 and becomes a float
  after the first answer.
- `Completion.MessageContent` returns `None` for a content that is not a
  string. In the source, a falsy one (`null`, `false`, `0`, `[]`, `{}`)
  fails `if response:` and is no answer there too. A truthy one (a
  non-empty object or list, `true`, a nonzero number) passes
  `if response:`; `api_calls_count` is incremented (app.py:280), and then
  `final_prompt + response` raises an uncaught `TypeError` (app.py:281)
  that stops the page. The model counts that pass as no answer, so where
  the source would end with a counter one call higher and a stopped page,
  the model's session continues with the counter unchanged.
- `Session.ShowAnswer` reports `ChecklistFailure` for the `IndexError` of
  a stored entry shorter than the checklist, and for progress above one,
  which `st.progress` rejects. The page would stop there with an error.
  `RunConsistent` shows that neither happens in a session driven by the
  page.
- The fallback bullet class follows the code's literal characters: a
  hyphen, U+00E2, U+20AC and U+00A2, which are the UTF-8 bytes of `•` read as
  Windows-1252 (cp1252). The actual bullet character `•` is not in the
  class, so a line starting with `• ` is not a bullet item.
- The model does not show the checklist-key collision after Clear History
  that one might expect. Clear History also empties the checklists, and the
  history length only grows between clears, so `RunConsistent` proves every
  new key fresh.
- Streamlit's own memory of widget values under a key is folded into the
  `checkbox` parameter.

=== FILE: checklist.dfy ===
/**
 * Checklist extraction from a finished answer (`extract_checklist_items`).
 *
 * Both patterns the application passes to `re.findall` have the shape
 * `<fixed character classes> (.+)`: a run of single-character classes,
 * then one capture group of at least one character other than a newline.
 * `FindAll` scans for them the way Python's regular-expression engine does:
 * it tries every start position from left to right, a match never overlaps
 * the previous one, a match may start in the middle of a line, and the
 * greedy `.+` runs to the end of the line.
 */
module Checklist {
  import opened Wrappers

  /** The character classes a match must start with, one per character. */
  type Lead = seq<set<char>>

  /** `- \[ \] ` : an unchecked markdown checkbox. */
  const Checkbox: Lead := [{'-'}, {' '}, {'['}, {' '}, {']'}, {' '}]

  /**
   * `[-â€¢] ` : the class as it is spelled in the source, that is a hyphen,
   * U+00E2, U+20AC and U+00A2 (the UTF-8 bytes of a bullet character read
   * as Windows-1252), followed by a space.
   */
  const Bullet: Lead := [{'-', '\U{E2}', '\U{20AC}', '\U{A2}'}, {' '}]

  /** At most this many fallback items are returned. */
  const MaxBullets := 10

  /** Neither pattern lets a match start on or run over a line break. */
  predicate SingleLine(p: Lead) {
    forall k :: 0 <= k < |p| ==> '\n' !in p[k]
  }

  /** Position of the first newline at or after `j`, or the end of `s`. */
  function LineEnd(s: string, j: nat): (e: nat)
    requires j <= |s|
    ensures j <= e <= |s|
    ensures forall k :: j <= k < e ==> s[k] != '\n'
    ensures e < |s| ==> s[e] == '\n'
    decreases |s| - j
  {
    if j == |s| || s[j] == '\n' then j else LineEnd(s, j + 1)
  }

  /** The pattern matches at `i`: the classes, then at least one character of `.`. */
  predicate MatchesAt(p: Lead, s: string, i: nat) {
    && i + |p| < |s|
    && (forall k :: 0 <= k < |p| ==> s[i + k] in p[k])
    && s[i + |p|] != '\n'
  }

  /**
   * `re.findall(pattern, s[i:])` for a pattern with one capture group: the
   * captured texts of the leftmost non-overlapping matches. Every item is a
   * non-empty piece of a single line.
   */
  function FindAll(p: Lead, s: string, i: nat): (items: seq<string>)
    requires i <= |s|
    ensures forall k :: 0 <= k < |items| ==> items[k] != [] && '\n' !in items[k]
    decreases |s| - i
  {
    if i == |s| then []
    else if MatchesAt(p, s, i) then
      var e := LineEnd(s, i + |p|);
      [s[i + |p|..e]] + FindAll(p, s, e)
    else FindAll(p, s, i + 1)
  }

  /**
   * `extract_checklist_items`: every checkbox item when there is at least
   * one; otherwise the first ten bullet items; `None` when there are
   * neither, so an empty list is never returned.
   */
  function ExtractChecklistItems(text: string): (r: Option<seq<string>>)
    ensures r.None? <==> FindAll(Checkbox, text, 0) == [] && FindAll(Bullet, text, 0) == []
    ensures r.Some? ==> r.value != []
    ensures r.Some? ==> forall k :: 0 <= k < |r.value| ==> r.value[k] != [] && '\n' !in r.value[k]
    ensures FindAll(Checkbox, text, 0) != [] ==> r == Some(FindAll(Checkbox, text, 0))
    ensures FindAll(Checkbox, text, 0) == [] && r.Some? ==>
              |r.value| == Min(MaxBullets, |FindAll(Bullet, text, 0)|)
              && r.value <= FindAll(Bullet, text, 0)
  {
    var matches := FindAll(Checkbox, text, 0);
    if matches != [] then Some(matches)
    else
      var bullets := FindAll(Bullet, text, 0);
      if bullets != [] then Some(bullets[..Min(MaxBullets, |bullets|)]) else None
  }

  // ---------------------------------------------------------------------
  // A line-by-line reading of the same scan, used as its reference.

  /** `s.split("\n")`: the lines of `s`; there is always at least one. */
  function Lines(s: string): (ls: seq<string>)
    ensures |ls| >= 1
  {
    if s == [] then [[]]
    else if s[0] == '\n' then [[]] + Lines(s[1..])
    else
      var rest := Lines(s[1..]);
      [[s[0]] + rest[0]] + rest[1..]
  }

  /** The line starts with the classes of `p`. */
  predicate Head(p: Lead, line: string) {
    |p| <= |line| && forall k :: 0 <= k < |p| ==> line[k] in p[k]
  }

  /** The capture of the leftmost match inside one line, which runs to the line's end. */
  function LineItem(p: Lead, line: string): Option<string> {
    if |line| <= |p| then None
    else if Head(p, line) then Some(line[|p|..])
    else LineItem(p, line[1..])
  }

  /** The items of a sequence of lines: at most one per line, in order. */
  function Items(p: Lead, lines: seq<string>): seq<string> {
    if lines == [] then [] else LineItem(p, lines[0]).ToSeq() + Items(p, lines[1..])
  }

  lemma PatternsSingleLine()
    ensures SingleLine(Checkbox) && SingleLine(Bullet)
  {
  }

  /** The first line of `s[j..]` ends at `LineEnd(s, j)`, and the next one starts after it. */
  lemma {:induction false} LinesFrom(s: string, j: nat)
    requires j <= |s|
    ensures Lines(s[j..])[0] == s[j..LineEnd(s, j)]
    ensures LineEnd(s, j) == |s| ==> |Lines(s[j..])| == 1
    ensures LineEnd(s, j) < |s| ==> Lines(s[j..])[1..] == Lines(s[LineEnd(s, j) + 1..])
    decreases |s| - j
  {
    if j < |s| {
      assert s[j..][1..] == s[j + 1..];
      if s[j] != '\n' {
        LinesFrom(s, j + 1);
        assert s[j..LineEnd(s, j)] == [s[j]] + s[j + 1..LineEnd(s, j + 1)];
      }
    }
  }

  /** Two starting points in the same line share its end. */
  lemma SameLineEnd(s: string, j: nat, j': nat)
    requires j <= |s| && j <= j' <= LineEnd(s, j)
    ensures LineEnd(s, j') == LineEnd(s, j)
  {
  }

  /** A line that has no newline before `m` ends at `m` or later. */
  lemma {:induction false} LineEndPast(s: string, j: nat, m: nat)
    requires j <= m <= |s|
    requires forall k :: j <= k < m ==> s[k] != '\n'
    ensures LineEnd(s, j) >= m
    decreases m - j
  {
    if j < m {
      LineEndPast(s, j + 1, m);
    }
  }

  /** Inside one line, `MatchesAt` agrees with the line-level `Head`. */
  lemma {:induction false} MatchesAtIsHead(p: Lead, s: string, i: nat)
    requires SingleLine(p) && i < |s| && s[i] != '\n'
    ensures var line := s[i..LineEnd(s, i)];
            MatchesAt(p, s, i) <==> |line| > |p| && Head(p, line)
    ensures MatchesAt(p, s, i) ==> LineEnd(s, i + |p|) == LineEnd(s, i)
  {
    var e := LineEnd(s, i);
    var line := s[i..e];
    if |line| > |p| && Head(p, line) {
      assert forall k :: 0 <= k < |p| ==> s[i + k] == line[k];
      assert s[i + |p|] == line[|p|];
    }
    if MatchesAt(p, s, i) {
      forall j | i <= j <= i + |p| ensures s[j] != '\n' {
        if j < i + |p| {
          assert s[i + (j - i)] in p[j - i];
        }
      }
      LineEndPast(s, i, i + |p| + 1);
      SameLineEnd(s, i, i + |p|);
    }
  }

  /**
   * The scan reads one item per line at most: `re.findall` over the text
   * yields, line by line, the capture of each line's leftmost match.
   */
  lemma {:induction false} FindAllByLines(p: Lead, s: string, i: nat)
    requires SingleLine(p) && i <= |s|
    ensures FindAll(p, s, i) == Items(p, Lines(s[i..]))
    decreases |s| - i
  {
    if i == |s| {
      assert s[i..] == [];
    } else if s[i] == '\n' {
      FindAllByLines(p, s, i + 1);
      NewlineStep(p, s, i);
    } else if MatchesAt(p, s, i) {
      var e := LineEnd(s, i + |p|);
      if e < |s| {
        FindAllByLines(p, s, e + 1);
      }
      MatchStep(p, s, i);
    } else {
      FindAllByLines(p, s, i + 1);
      NoMatchStep(p, s, i);
    }
  }

  /** A newline ends an empty line, which holds no item. */
  lemma NewlineStep(p: Lead, s: string, i: nat)
    requires SingleLine(p) && i < |s| && s[i] == '\n'
    requires FindAll(p, s, i + 1) == Items(p, Lines(s[i + 1..]))
    ensures FindAll(p, s, i) == Items(p, Lines(s[i..]))
  {
    assert !MatchesAt(p, s, i) by {
      if |p| > 0 {
        assert s[i + 0] !in p[0];
      }
    }
    assert s[i..][1..] == s[i + 1..];
  }

  /** A match takes the rest of its line, and the scan resumes at the line break. */
  lemma MatchStep(p: Lead, s: string, i: nat)
    requires SingleLine(p) && i < |s| && s[i] != '\n' && MatchesAt(p, s, i)
    requires var e := LineEnd(s, i + |p|);
             e < |s| ==> FindAll(p, s, e + 1) == Items(p, Lines(s[e + 1..]))
    ensures FindAll(p, s, i) == Items(p, Lines(s[i..]))
  {
    var ls := Lines(s[i..]);
    LinesFrom(s, i);
    MatchesAtIsHead(p, s, i);
    var e := LineEnd(s, i);
    var line := s[i..e];
    assert LineItem(p, line) == Some(s[i + |p|..e]);
    if e < |s| {
      assert !MatchesAt(p, s, e);
    }
    assert ls == [line] + ls[1..];
  }

  /** No match here: the item of this line is the item of its remainder. */
  lemma NoMatchStep(p: Lead, s: string, i: nat)
    requires SingleLine(p) && i < |s| && s[i] != '\n' && !MatchesAt(p, s, i)
    requires FindAll(p, s, i + 1) == Items(p, Lines(s[i + 1..]))
    ensures FindAll(p, s, i) == Items(p, Lines(s[i..]))
  {
    var ls := Lines(s[i..]);
    LinesFrom(s, i);
    MatchesAtIsHead(p, s, i);
    var line := s[i..LineEnd(s, i)];
    assert s[i..][1..] == s[i + 1..];
    var rest := Lines(s[i + 1..]);
    assert ls == [[s[i]] + rest[0]] + rest[1..];
    LinesFrom(s, i + 1);
    assert [s[i]] + rest[0] == line;
    assert LineItem(p, line) == LineItem(p, rest[0]) by {
      assert line[1..] == rest[0];
    }
  }

  /** A text without newlines is a single line. */
  lemma {:induction false} LinesOfLine(line: string)
    requires '\n' !in line
    ensures Lines(line) == [line]
    decreases |line|
  {
    if line != [] {
      LinesOfLine(line[1..]);
      assert [line[0]] + line[1..] == line;
    }
  }

  /** A newline-free line followed by a newline is the first line of the text. */
  lemma {:induction false} LinesCons(line: string, rest: string)
    requires '\n' !in line
    ensures Lines(line + "\n" + rest) == [line] + Lines(rest)
    decreases |line|
  {
    if line == [] {
      assert (line + "\n" + rest)[1..] == rest;
    } else {
      assert (line + "\n" + rest)[1..] == line[1..] + "\n" + rest;
      LinesCons(line[1..], rest);
      assert [line[0]] + line[1..] == line;
    }
  }

  /** A line that holds no hyphen holds no checkbox. */
  lemma {:induction false} NoHyphenNoCheckbox(line: string)
    requires '-' !in line
    ensures LineItem(Checkbox, line) == None
    decreases |line|
  {
    if |line| > |Checkbox| {
      assert line[0] !in Checkbox[0];
      NoHyphenNoCheckbox(line[1..]);
    }
  }

  /** `- [ ] item` is read back as `item`. */
  lemma CheckboxLineItem(item: string)
    requires item != []
    ensures LineItem(Checkbox, "- [ ] " + item) == Some(item)
  {
    var line := "- [ ] " + item;
    assert Head(Checkbox, line);
    assert line[|Checkbox|..] == item;
  }

  /**
   * `extract_checklist_items` read line by line: all checkbox items, one per
   * line, when there is one; otherwise at most ten bullet items, one per line.
   */
  lemma ExtractByLines(text: string)
    ensures var boxes := Items(Checkbox, Lines(text));
            var bullets := Items(Bullet, Lines(text));
            ExtractChecklistItems(text) ==
              if boxes != [] then Some(boxes)
              else if bullets != [] then Some(bullets[..Min(MaxBullets, |bullets|)])
              else None
  {
    PatternsSingleLine();
    FindAllByLines(Checkbox, text, 0);
    FindAllByLines(Bullet, text, 0);
    assert text[0..] == text;
  }

  /** Two checkbox lines yield exactly their two items. */
  lemma TwoCheckboxLines(a: string, b: string)
    requires a != [] && b != [] && '\n' !in a && '\n' !in b
    ensures ExtractChecklistItems(("- [ ] " + a) + "\n" + ("- [ ] " + b)) == Some([a, b])
  {
    var text := ("- [ ] " + a) + "\n" + ("- [ ] " + b);
    LinesCons("- [ ] " + a, "- [ ] " + b);
    LinesOfLine("- [ ] " + b);
    CheckboxLineItem(a);
    CheckboxLineItem(b);
    assert '\n' !in "- [ ] " + a && '\n' !in "- [ ] " + b;
    assert Lines(text) == ["- [ ] " + a, "- [ ] " + b];
    assert Items(Checkbox, ["- [ ] " + b]) == [b] by {
      assert ["- [ ] " + b][1..] == [];
    }
    assert ["- [ ] " + a, "- [ ] " + b][1..] == ["- [ ] " + b];
    assert Items(Checkbox, Lines(text)) == [a, b];
    ExtractByLines(text);
  }

  /** A two-step answer yields exactly its two steps. */
  lemma TwoCheckboxExample()
    ensures ExtractChecklistItems(("- [ ] " + "Test soil pH") + "\n" + ("- [ ] " + "Apply fertilizer"))
            == Some(["Test soil pH", "Apply fertilizer"])
  {
    TwoCheckboxLines("Test soil pH", "Apply fertilizer");
  }
}

=== FILE: completion.dfy ===
/**
 * The completion client of app.py (`call_openrouter_api`): the message
 * stack sent to the chat-completions endpoint and the accumulation of a
 * streamed answer from server-sent-event lines.
 *
 * The HTTP exchange is not modelled: the caller supplies its outcome (a
 * transport failure, or a status, a body and the body's lines), and
 * `json.loads` is a parameter `parse` that returns `None` where the real
 * parser raises.
 */
module Completion {
  import opened Wrappers
  import opened PyStr

  datatype Role = System | User | Assistant

  datatype Message = Message(role: Role, content: string)

  /** At most this many earlier messages are sent along (`context[-6:]`). */
  const ContextWindow := 6

  /**
   * The message stack: the system instruction, then the last six context
   * messages in their order (none for a missing or empty context), then the
   * user's prompt.
   */
  function BuildMessages(system: string, prompt: string, context: Option<seq<Message>>): (msgs: seq<Message>)
    ensures 2 <= |msgs| <= 2 + ContextWindow
    ensures msgs[0] == Message(System, system)
    ensures msgs[|msgs| - 1] == Message(User, prompt)
    ensures context.None? || context.value == [] ==> |msgs| == 2
    ensures context.Some? ==>
              var ctx := context.value;
              var k := |msgs| - 2;
              k == Min(ContextWindow, |ctx|) && msgs[1..|msgs| - 1] == ctx[|ctx| - k..]
  {
    var earlier := if context.Some? && context.value != [] then LastN(context.value, ContextWindow) else [];
    var msgs := [Message(System, system)] + earlier + [Message(User, prompt)];
    assert msgs[1..|msgs| - 1] == earlier;
    msgs
  }

  /** The request body's fixed sampling settings. */
  const Temperature: real := 0.7
  const TopP: real := 0.9
  const Endpoint := "https://openrouter.ai/api/v1/chat/completions"

  datatype Request = Request(
    url: string,
    authorization: string,
    model: string,
    messages: seq<Message>,
    temperature: real,
    topP: real,
    maxTokens: int,
    stream: bool)

  /** The request `call_openrouter_api` posts: bearer-token header and the payload. */
  function BuildRequest(system: string, prompt: string, apiKey: string, model: string,
                        maxTokens: int, stream: bool, context: Option<seq<Message>>): (r: Request)
    ensures r.authorization == "Bearer " + apiKey
    ensures r.url == Endpoint && r.temperature == 0.7 && r.topP == 0.9
    ensures r.model == model && r.maxTokens == maxTokens && r.stream == stream
    ensures r.messages == BuildMessages(system, prompt, context)
  {
    Request(Endpoint, "Bearer " + apiKey, model, BuildMessages(system, prompt, context),
            Temperature, TopP, maxTokens, stream)
  }

  // ---------------------------------------------------------------------
  // One streamed event.

  /** A decoded JSON value, as `json.loads` returns it. */
  datatype Json =
    | JNull
    | JBool(b: bool)
    | JNumber(n: real)
    | JString(s: string)
    | JArray(items: seq<Json>)
    | JObject(fields: map<string, Json>)

  /**
   * What the body of the inner `try` does with one decoded event:
   * `Appended(t)` when `choices[0].delta.content` (defaulting to "") is a
   * string `t`; `NoChoices` when the event is not an object with a
   * `choices` key, so nothing is appended; `Raised` when a lookup or the
   * concatenation raises and the line is skipped.
   */
  datatype Effect = Appended(text: string) | NoChoices | Raised

  /** `d.get(key, default)` on the fields of a JSON object. */
  function Get(fields: map<string, Json>, key: string, default: Json): (v: Json)
    ensures key in fields ==> v == fields[key]
    ensures key !in fields ==> v == default
  {
    if key in fields then fields[key] else default
  }

  /**
   * One decoded event: when `"choices"` is in it, the text is found at
   * `choices[0]`, then its `delta` (an empty object when missing), then that
   * delta's `content` (the empty string when missing). The text is appended
   * only when every step of the way succeeds and the content is a string.
   * Python's `in` is a key test on an object, an element test on a list and
   * a substring test on a string, and it raises on any other value.
   */
  function EventEffect(chunk: Json): (e: Effect)
    ensures e.Appended? <==>
              && chunk.JObject? && "choices" in chunk.fields
              && var choices := chunk.fields["choices"];
              && choices.JArray? && choices.items != [] && choices.items[0].JObject?
              && var delta := Get(choices.items[0].fields, "delta", JObject(map[]));
              && delta.JObject? && Get(delta.fields, "content", JString("")).JString?
    ensures e.Appended? ==>
              var delta := Get(chunk.fields["choices"].items[0].fields, "delta", JObject(map[]));
              e.text == Get(delta.fields, "content", JString("")).s
    ensures e.NoChoices? <==>
              || (chunk.JObject? && "choices" !in chunk.fields)
              || (chunk.JArray? && JString("choices") !in chunk.items)
              || (chunk.JString? && !IsInfix("choices", chunk.s))
  {
    match chunk
    case JObject(fields) =>
      if "choices" !in fields then NoChoices else ChoicesEffect(fields["choices"])
    case JArray(items) =>
      // the element test succeeds, then indexing a list by a string raises
      if JString("choices") in items then Raised else NoChoices
    case JString(s) =>
      // the substring test succeeds, then indexing a string by a string raises
      if IsInfix("choices", s) then Raised else NoChoices
    case _ =>
      Raised
  }

  /** The lookups below `choices`, and the append, which needs a string. */
  function ChoicesEffect(choices: Json): Effect {
    if !choices.JArray? || choices.items == [] then Raised
    else
      var first := choices.items[0];
      if !first.JObject? then Raised
      else
        var delta := Get(first.fields, "delta", JObject(map[]));
        if !delta.JObject? then Raised
        else
          var content := Get(delta.fields, "content", JString(""));
          if content.JString? then Appended(content.s) else Raised
  }

  /**
   * The text an event adds to the answer: its delta, or nothing. Any text
   * it adds is the string found at `choices[0].delta.content` of an event
   * that parsed.
   */
  function EventText(chunk: Option<Json>): (t: string)
    ensures t != [] ==>
              && chunk.Some? && chunk.value.JObject? && "choices" in chunk.value.fields
              && var choices := chunk.value.fields["choices"];
              && choices.JArray? && choices.items != [] && choices.items[0].JObject?
              && var delta := Get(choices.items[0].fields, "delta", JObject(map[]));
              && delta.JObject? && Get(delta.fields, "content", JString("")) == JString(t)
  {
    match chunk
    case None => []
    case Some(j) =>
      match EventEffect(j)
      case Appended(text) => text
      case _ => []
  }

  /**
   * A content delta, the usual streamed event, appends its text, whatever
   * else the event, its first choice or its delta hold.
   */
  lemma ContentDeltaAppends(fields: map<string, Json>, first: map<string, Json>, rest: seq<Json>,
                            delta: map<string, Json>, t: string)
    requires "choices" in fields && fields["choices"] == JArray([JObject(first)] + rest)
    requires "delta" in first && first["delta"] == JObject(delta)
    requires "content" in delta && delta["content"] == JString(t)
    ensures EventEffect(JObject(fields)) == Appended(t)
    ensures EventText(Some(JObject(fields))) == t
  {
  }

  /**
   * A choice without a delta, or a delta without content (the opening event
   * that only carries the role), appends the empty string.
   */
  lemma NoContentAppendsNothing(fields: map<string, Json>, first: map<string, Json>, rest: seq<Json>)
    requires "choices" in fields && fields["choices"] == JArray([JObject(first)] + rest)
    requires "delta" !in first || (first["delta"].JObject? && "content" !in first["delta"].fields)
    ensures EventEffect(JObject(fields)) == Appended("")
    ensures EventText(Some(JObject(fields))) == []
  {
  }

  /**
   * A `null` delta or a `null` content raises inside the `try`, so the line
   * is skipped.
   */
  lemma NullDeltaOrContentSkipped(fields: map<string, Json>, first: map<string, Json>, rest: seq<Json>)
    requires "choices" in fields && fields["choices"] == JArray([JObject(first)] + rest)
    requires "delta" in first
    requires first["delta"] == JNull
             || (first["delta"].JObject? && "content" in first["delta"].fields
                 && first["delta"].fields["content"] == JNull)
    ensures EventEffect(JObject(fields)) == Raised
    ensures EventText(Some(JObject(fields))) == []
  {
  }

  /** An event without `choices`, such as a keep-alive or usage report, appends nothing. */
  lemma NoChoicesAppendsNothing(fields: map<string, Json>)
    requires "choices" !in fields
    ensures EventEffect(JObject(fields)) == NoChoices
    ensures EventText(Some(JObject(fields))) == []
  {
  }

  /** The prefix of a server-sent data line. */
  const DataPrefix := "data: "
  const DoneMarker := "[DONE]"

  /** How the loop treats one line of the body. */
  datatype LineKind = Blank | NotData | Done | Data(payload: string)

  /**
   * `if line:` / `decoded.startswith("data: ")` / `decoded[6:]` /
   * `decoded.strip() == "[DONE]"`, in this order.
   */
  function Classify(line: string): (k: LineKind)
    ensures k.Blank? <==> line == []
    ensures k.NotData? <==> line != [] && !StartsWith(line, DataPrefix)
    ensures k.Done? <==> StartsWith(line, DataPrefix) && Strip(line[|DataPrefix|..]) == DoneMarker
    ensures k.Data? ==> line == DataPrefix + k.payload && Strip(k.payload) != DoneMarker
  {
    if line == [] then Blank
    else if !StartsWith(line, DataPrefix) then NotData
    else
      var payload := line[|DataPrefix|..];
      if Strip(payload) == DoneMarker then Done
      else
        assert line == DataPrefix + payload;
        Data(payload)
  }

  // ---------------------------------------------------------------------
  // The stream as a fold over its lines.

  /** The lines before the first `[DONE]` event: the loop never reads past it. */
  function BeforeDone(lines: seq<string>): (r: seq<string>)
    ensures r <= lines
    ensures forall k :: 0 <= k < |r| ==> !Classify(lines[k]).Done?
    ensures r != lines ==> Classify(lines[|r|]).Done?
  {
    if lines == [] || Classify(lines[0]).Done? then []
    else
      var rest := BeforeDone(lines[1..]);
      BeforeDoneCons(lines, rest);
      [lines[0]] + rest
  }

  /** The recursive step of `BeforeDone`: a line that is not `[DONE]` is kept. */
  lemma BeforeDoneCons(lines: seq<string>, rest: seq<string>)
    requires lines != [] && !Classify(lines[0]).Done?
    requires rest <= lines[1..]
    requires forall k :: 0 <= k < |rest| ==> !Classify(lines[1..][k]).Done?
    requires rest != lines[1..] ==> Classify(lines[1..][|rest|]).Done?
    ensures [lines[0]] + rest <= lines
    ensures forall k :: 0 <= k < 1 + |rest| ==> !Classify(lines[k]).Done?
    ensures [lines[0]] + rest != lines ==> Classify(lines[1 + |rest|]).Done?
  {
    assert forall k :: 1 <= k < |lines| ==> lines[k] == lines[1..][k - 1];
  }

  /** The data payloads among `lines`, in order. */
  function Payloads(lines: seq<string>): (ps: seq<string>)
    ensures |ps| <= |lines|
  {
    if lines == [] then []
    else (if Classify(lines[0]).Data? then [Classify(lines[0]).payload] else []) + Payloads(lines[1..])
  }

  function ConcatTexts(payloads: seq<string>, parse: string -> Option<Json>): string {
    if payloads == [] then [] else EventText(parse(payloads[0])) + ConcatTexts(payloads[1..], parse)
  }

  /**
   * Reference for the streamed answer: the deltas of the data events before
   * the first `[DONE]`, in order.
   */
  function StreamedAnswer(lines: seq<string>, parse: string -> Option<Json>): string {
    ConcatTexts(Payloads(BeforeDone(lines)), parse)
  }

  /** The streamed answer line by line: each line adds its delta, `[DONE]` ends it. */
  function StreamFold(lines: seq<string>, parse: string -> Option<Json>): string {
    if lines == [] then []
    else
      match Classify(lines[0])
      case Done => []
      case Data(payload) => EventText(parse(payload)) + StreamFold(lines[1..], parse)
      case _ => StreamFold(lines[1..], parse)
  }

  /** The fold computes the reference answer. */
  lemma {:induction false} StreamFoldIsStreamedAnswer(lines: seq<string>, parse: string -> Option<Json>)
    ensures StreamFold(lines, parse) == StreamedAnswer(lines, parse)
    decreases |lines|
  {
    if lines != [] && !Classify(lines[0]).Done? {
      var kind := Classify(lines[0]);
      var rest := BeforeDone(lines[1..]);
      StreamFoldIsStreamedAnswer(lines[1..], parse);
      assert BeforeDone(lines) == [lines[0]] + rest;
      assert ([lines[0]] + rest)[1..] == rest;
      if kind.Data? {
        assert Payloads([lines[0]] + rest) == [kind.payload] + Payloads(rest);
        assert ([kind.payload] + Payloads(rest))[1..] == Payloads(rest);
      } else {
        assert Payloads([lines[0]] + rest) == Payloads(rest);
      }
    }
  }

  /**
   * The streaming loop of `call_openrouter_api`: blank lines and lines
   * without the data prefix are passed over, `[DONE]` ends the loop, and a
   * line whose parse or lookup raises is skipped. The answer is the
   * concatenation of the deltas before the first `[DONE]`.
   */
  method ConsumeStream(lines: seq<string>, parse: string -> Option<Json>) returns (full: string)
    ensures full == StreamedAnswer(lines, parse)
  {
    full := "";
    var i := 0;
    while i < |lines|
      invariant 0 <= i <= |lines|
      invariant full + StreamFold(lines[i..], parse) == StreamFold(lines, parse)
    {
      var kind := Classify(lines[i]);
      StreamFoldStep(lines, i, parse);
      if kind.Done? {
        assert full + [] == full;
        break;
      }
      if kind.Data? {
        var delta := EventText(parse(kind.payload));
        AppendAssoc(full, delta, StreamFold(lines[i + 1..], parse));
        full := full + delta;
      }
      i := i + 1;
    }
    if i == |lines| {
      assert full + [] == full;
    }
    StreamFoldIsStreamedAnswer(lines, parse);
  }

  /** One step of the fold from position `i`. */
  lemma StreamFoldStep(lines: seq<string>, i: nat, parse: string -> Option<Json>)
    requires i < |lines|
    ensures Classify(lines[i]).Done? ==> StreamFold(lines[i..], parse) == []
    ensures Classify(lines[i]).Data? ==>
              StreamFold(lines[i..], parse) == EventText(parse(Classify(lines[i]).payload)) + StreamFold(lines[i + 1..], parse)
    ensures !Classify(lines[i]).Done? && !Classify(lines[i]).Data? ==>
              StreamFold(lines[i..], parse) == StreamFold(lines[i + 1..], parse)
  {
    assert lines[i..][0] == lines[i];
    assert lines[i..][1..] == lines[i + 1..];
  }

  /** Whether some line of `lines` is `[DONE]`. */
  predicate HasDone(lines: seq<string>) {
    lines != [] && (Classify(lines[0]).Done? || HasDone(lines[1..]))
  }

  /** The loop reads every line exactly when none of them is `[DONE]`. */
  lemma {:induction false} BeforeDoneAll(lines: seq<string>)
    ensures BeforeDone(lines) == lines <==> !HasDone(lines)
    decreases |lines|
  {
    if lines != [] && !Classify(lines[0]).Done? {
      BeforeDoneAll(lines[1..]);
      assert BeforeDone(lines) == [lines[0]] + BeforeDone(lines[1..]);
      assert lines == [lines[0]] + lines[1..];
    }
  }

  /**
   * The fold over two stretches of lines: the second stretch counts only
   * when the first holds no `[DONE]`.
   */
  lemma {:induction false} StreamFoldConcat(a: seq<string>, b: seq<string>, parse: string -> Option<Json>)
    ensures !HasDone(a) ==> StreamFold(a + b, parse) == StreamFold(a, parse) + StreamFold(b, parse)
    ensures HasDone(a) ==> StreamFold(a + b, parse) == StreamFold(a, parse)
    decreases |a|
  {
    if a == [] {
      assert a + b == b;
    } else {
      var kind := Classify(a[0]);
      assert (a + b)[0] == a[0];
      assert (a + b)[1..] == a[1..] + b;
      StreamFoldConcat(a[1..], b, parse);
      if kind.Data? {
        var t := EventText(parse(kind.payload));
        assert StreamFold(a + b, parse) == t + StreamFold(a[1..] + b, parse);
        assert StreamFold(a, parse) == t + StreamFold(a[1..], parse);
        if !HasDone(a) {
          AppendAssoc(t, StreamFold(a[1..], parse), StreamFold(b, parse));
        }
      }
    }
  }

  /** Nothing after the first `[DONE]` reaches the answer. */
  lemma LinesAfterDoneIgnored(before: seq<string>, done: string, after: seq<string>, parse: string -> Option<Json>)
    requires Classify(done).Done?
    ensures StreamedAnswer(before + [done] + after, parse) == StreamedAnswer(before, parse)
  {
    StreamFoldConcat(before, [done] + after, parse);
    StreamFoldConcat([done], after, parse);
    assert before + [done] + after == before + ([done] + after);
    StreamFoldIsStreamedAnswer(before + [done] + after, parse);
    StreamFoldIsStreamedAnswer(before, parse);
  }

  /**
   * A line that is blank, is not a data line, or whose event does not
   * append (unparsable, no `choices`, or a lookup that raises) leaves the
   * answer as the remaining lines make it.
   */
  lemma SkippedLine(line: string, rest: seq<string>, parse: string -> Option<Json>)
    requires !Classify(line).Done?
    requires Classify(line).Data? ==>
               var chunk := parse(Classify(line).payload);
               chunk.None? || !EventEffect(chunk.value).Appended?
    ensures StreamedAnswer([line] + rest, parse) == StreamedAnswer(rest, parse)
  {
    assert ([line] + rest)[1..] == rest;
    StreamFoldIsStreamedAnswer([line] + rest, parse);
    StreamFoldIsStreamedAnswer(rest, parse);
  }

  /**
   * The text shown while streaming only grows: after any number of lines,
   * the accumulated answer is a prefix of the final one.
   */
  lemma PartialAnswerIsPrefix(lines: seq<string>, i: nat, parse: string -> Option<Json>)
    requires i <= |lines|
    ensures StreamFold(lines[..i], parse) <= StreamedAnswer(lines, parse)
  {
    assert lines == lines[..i] + lines[i..];
    StreamFoldConcat(lines[..i], lines[i..], parse);
    StreamFoldIsStreamedAnswer(lines, parse);
    BeforeDoneAll(lines[..i]);
  }

  // ---------------------------------------------------------------------
  // The whole call.

  /**
   * What the network gives back for a request: a failure that makes
   * `requests.post` raise, or a status, the body text and the body's lines,
   * each line decoded as UTF-8 (`None` for a line that does not decode).
   */
  datatype HttpOutcome =
    | TransportFailure
    | HttpResponse(status: int, body: string, lines: seq<Option<string>>)

  /** The status the streaming branch accepts. */
  const StatusOk := 200

  /** The lines before the first one that does not decode. */
  function DecodedPrefix(raw: seq<Option<string>>): (pre: seq<string>)
    ensures |pre| <= |raw|
    ensures forall k :: 0 <= k < |pre| ==> raw[k] == Some(pre[k])
    ensures |pre| < |raw| ==> raw[|pre|].None?
  {
    if raw == [] || raw[0].None? then [] else [raw[0].value] + DecodedPrefix(raw[1..])
  }

  /** Lines that all decode. */
  function Decoded(lines: seq<string>): (raw: seq<Option<string>>)
    ensures |raw| == |lines|
    ensures forall k :: 0 <= k < |raw| ==> raw[k] == Some(lines[k])
  {
    seq(|lines|, k requires 0 <= k < |lines| => Some(lines[k]))
  }

  /**
   * The streaming branch after a 200 status: a decoding failure raises out
   * of the loop (the whole call gives `None`) unless `[DONE]` came first.
   */
  function StreamResult(raw: seq<Option<string>>, parse: string -> Option<Json>): Option<string> {
    var pre := DecodedPrefix(raw);
    if |pre| < |raw| && BeforeDone(pre) == pre then None else Some(StreamedAnswer(pre, parse))
  }

  lemma {:induction false} DecodedPrefixAppend(lines: seq<string>, rest: seq<Option<string>>)
    ensures DecodedPrefix(Decoded(lines) + rest) == lines + DecodedPrefix(rest)
    decreases |lines|
  {
    if lines == [] {
      assert Decoded(lines) + rest == rest;
    } else {
      var raw := Decoded(lines) + rest;
      assert raw[0] == Some(lines[0]);
      assert raw[1..] == Decoded(lines[1..]) + rest;
      DecodedPrefixAppend(lines[1..], rest);
      AppendAssoc([lines[0]], lines[1..], DecodedPrefix(rest));
      assert lines == [lines[0]] + lines[1..];
    }
  }

  /** When every line decodes, the stream yields the reference answer. */
  lemma StreamResultAllDecoded(lines: seq<string>, parse: string -> Option<Json>)
    ensures StreamResult(Decoded(lines), parse) == Some(StreamedAnswer(lines, parse))
  {
    DecodedPrefixAppend(lines, []);
    assert Decoded(lines) + [] == Decoded(lines);
    assert lines + [] == lines;
  }

  /** A line that does not decode, reached before any `[DONE]`, loses the whole answer. */
  lemma UndecodableLineFails(before: seq<string>, after: seq<Option<string>>, parse: string -> Option<Json>)
    requires BeforeDone(before) == before
    ensures StreamResult(Decoded(before) + [None] + after, parse) == None
  {
    var raw := Decoded(before) + ([None] + after);
    assert Decoded(before) + [None] + after == raw;
    DecodedPrefixAppend(before, [None] + after);
    assert DecodedPrefix([None] + after) == [];
    assert before + [] == before;
    assert |DecodedPrefix(raw)| < |raw|;
  }

  /** Once `[DONE]` has been read, later lines cannot spoil the answer, decodable or not. */
  lemma DoneBeforeUndecodable(before: seq<string>, done: string, after: seq<Option<string>>, parse: string -> Option<Json>)
    requires Classify(done).Done?
    ensures StreamResult(Decoded(before) + [Some(done)] + after, parse) == Some(StreamedAnswer(before, parse))
  {
    var tail := [Some(done)] + after;
    var raw := Decoded(before) + tail;
    assert Decoded(before) + [Some(done)] + after == raw;
    DecodedPrefixAppend(before, tail);
    var rest := DecodedPrefix(after);
    assert DecodedPrefix(tail) == [done] + rest by {
      assert tail[1..] == after;
    }
    var pre := before + [done] + rest;
    AppendAssoc(before, [done], rest);
    assert DecodedPrefix(raw) == pre;
    LinesAfterDoneIgnored(before, done, rest, parse);
    BeforeDoneStops(before, done, rest);
  }

  /** Reading stops at or before a `[DONE]` line and never includes it. */
  lemma BeforeDoneStops(before: seq<string>, done: string, after: seq<string>)
    requires Classify(done).Done?
    ensures BeforeDone(before + [done] + after) != before + [done] + after
    ensures |BeforeDone(before + [done] + after)| <= |before|
    ensures BeforeDone(before + [done] + after) <= before
  {
    assert (before + [done] + after)[|before|] == done;
  }

  /**
   * `response.json()["choices"][0]["message"]["content"]` for a body that
   * parses to `body`: `None` where a lookup raises, and for a `null` content.
   */
  function MessageContent(body: Json): (r: Option<string>)
    ensures r.Some? <==>
              && body.JObject? && "choices" in body.fields
              && var choices := body.fields["choices"];
              && choices.JArray? && choices.items != []
              && choices.items[0].JObject? && "message" in choices.items[0].fields
              && var message := choices.items[0].fields["message"];
              && message.JObject? && "content" in message.fields
              && message.fields["content"].JString?
    ensures r.Some? ==> r.value == body.fields["choices"].items[0].fields["message"].fields["content"].s
  {
    if !body.JObject? || "choices" !in body.fields then None
    else
      var choices := body.fields["choices"];
      if !choices.JArray? || choices.items == [] || !choices.items[0].JObject? then None
      else
        var first := choices.items[0].fields;
        if "message" !in first || !first["message"].JObject? then None
        else
          var message := first["message"].fields;
          if "content" in message && message["content"].JString? then Some(message["content"].s) else None
  }

  /**
   * `call_openrouter_api`: build the request, hand it to the network
   * (`respond`), and read the answer back; every failure gives `None`.
   */
  function CallApi(system: string, prompt: string, apiKey: string, model: string, maxTokens: int,
                   stream: bool, context: Option<seq<Message>>,
                   respond: Request -> HttpOutcome, parse: string -> Option<Json>): Option<string>
  {
    var outcome := respond(BuildRequest(system, prompt, apiKey, model, maxTokens, stream, context));
    match outcome
    case TransportFailure => None
    case HttpResponse(status, body, lines) =>
      if stream then
        if status != StatusOk then None else StreamResult(lines, parse)
      else
        match parse(body)
        case None => None
        case Some(j) => MessageContent(j)
  }

  /**
   * How the call ends: a transport failure and a streamed reply with a
   * status other than 200 give `None`; a streamed 200 reply gives what its
   * lines give; a plain reply gives the message content of its parsed body,
   * or `None` when the body does not parse.
   */
  lemma CallApiOutcomes(system: string, prompt: string, apiKey: string, model: string, maxTokens: int,
                        stream: bool, context: Option<seq<Message>>,
                        respond: Request -> HttpOutcome, parse: string -> Option<Json>)
    ensures var r := CallApi(system, prompt, apiKey, model, maxTokens, stream, context, respond, parse);
            var outcome := respond(BuildRequest(system, prompt, apiKey, model, maxTokens, stream, context));
            && (outcome.TransportFailure? ==> r.None?)
            && (stream && outcome.HttpResponse? && outcome.status != StatusOk ==> r.None?)
            && (stream && outcome.HttpResponse? && outcome.status == StatusOk ==> r == StreamResult(outcome.lines, parse))
            && (!stream && outcome.HttpResponse? && parse(outcome.body).None? ==> r.None?)
            && (!stream && outcome.HttpResponse? && parse(outcome.body).Some? ==>
                  r == MessageContent(parse(outcome.body).value))
  {
  }

  /**
   * A streamed reply with status 200 whose lines all decode yields exactly
   * the deltas before the first `[DONE]`.
   */
  lemma StreamedCallAnswer(system: string, prompt: string, apiKey: string, model: string, maxTokens: int,
                           context: Option<seq<Message>>, respond: Request -> HttpOutcome,
                           parse: string -> Option<Json>, body: string, lines: seq<string>)
    requires respond(BuildRequest(system, prompt, apiKey, model, maxTokens, true, context))
             == HttpResponse(StatusOk, body, Decoded(lines))
    ensures CallApi(system, prompt, apiKey, model, maxTokens, true, context, respond, parse)
            == Some(StreamedAnswer(lines, parse))
  {
    StreamResultAllDecoded(lines, parse);
  }
}

=== FILE: prompts.dfy ===
/**
 * The prompt templates of prompts.py and their `{query}` substitution.
 *
 * Each template is kept as the text before and the text after its single
 * `{query}` field; each of those is written as the pieces of the source's
 * lines (a long line is cut at a space), so that the verifier can check the
 * text piece by piece.
 */
module Prompts {
  import opened Wrappers
  import opened PyStr

  /** The one replacement field every template holds. */
  const Field := "{query}"

  predicate BraceFree(s: string) {
    forall i :: 0 <= i < |s| ==> s[i] != '{' && s[i] != '}'
  }

  function Concat(pieces: seq<string>): string {
    if pieces == [] then [] else pieces[0] + Concat(pieces[1..])
  }

  /** Text made of brace-free pieces is brace-free. */
  lemma {:induction false} BraceFreeConcat(pieces: seq<string>)
    requires forall k :: 0 <= k < |pieces| ==> BraceFree(pieces[k])
    ensures BraceFree(Concat(pieces))
    decreases |pieces|
  {
    if pieces != [] {
      BraceFreeConcat(pieces[1..]);
    }
  }

  /** A template: the text before `{query}` and the text after it. */
  datatype Template = Template(head: seq<string>, tail: seq<string>) {

    /** The template string as the source spells it. */
    function Text(): string {
      Concat(head) + Field + Concat(tail)
    }

    /** No brace outside the one field. */
    predicate WellFormed() {
      BraceFree(Concat(head)) && BraceFree(Concat(tail))
    }
  }

  /** `CROP_GUIDE` */
  const CropGuide := Template(
    [ "\n",
      "You are an expert agronomist. ",
      "Provide clear, practical ",
      "crop-specific guidance.\n",
      "\n",
      "Question: " ],
    [ "\n",
      "\n",
      "Give structured advice including:\n",
      "1. Ideal climate & soil\n",
      "2. Seed selection\n",
      "3. Fertilizer schedule\n",
      "4. Irrigation planning\n",
      "5. Pest & disease prevention\n",
      "6. Expected yield improvements\n" ])

  /** `SOIL_GUIDE` */
  const SoilGuide := Template(
    [ "\n",
      "You are a soil scientist. Give ",
      "detailed soil improvement ",
      "recommendations.\n",
      "\n",
      "Question: " ],
    [ "\n",
      "\n",
      "Include:\n",
      "- Soil tests needed\n",
      "- NPK improvement steps\n",
      "- Organic matter improvement\n",
      "- pH correction methods\n" ])

  /** `PEST_GUIDE` */
  const PestGuide := Template(
    [ "\n",
      "You are an agricultural pest ",
      "diagnosis expert.\n",
      "\n",
      "Question: " ],
    [ "\n",
      "\n",
      "Provide:\n",
      "- Pest/disease identification\n",
      "- Symptoms analysis\n",
      "- Organic and chemical control\n",
      "- Preventive measures\n" ])

  /** `IRRIGATION_GUIDE` */
  const IrrigationGuide := Template(
    [ "\n",
      "You are an irrigation expert.\n",
      "\n",
      "Question: " ],
    [ "\n",
      "\n",
      "Include:\n",
      "- Water requirement\n",
      "- Irrigation frequency\n",
      "- Drip layout or flood method\n",
      "- Seasonal adjustments\n" ])

  /** `WEATHER_GUIDE` */
  const WeatherGuide := Template(
    [ "\n",
      "You are a crop-weather scientist.\n",
      "\n",
      "Question: " ],
    [ "\n",
      "\n",
      "Explain:\n",
      "- Weather impact\n",
      "- Risk analysis\n",
      "- What actions to take in next 7 ",
      "days\n" ])

  /** `YIELD_GUIDE` */
  const YieldGuide := Template(
    [ "\n",
      "You are a yield optimization ",
      "agronomist.\n",
      "\n",
      "Question: " ],
    [ "\n",
      "\n",
      "Include:\n",
      "- Best practices\n",
      "- Fertilizer plan\n",
      "- Crop rotation\n",
      "- Technology integration\n" ])

  /** `MARKET_GUIDE` */
  const MarketGuide := Template(
    [ "\n",
      "You are an agricultural ",
      "economist.\n",
      "\n",
      "Question: " ],
    [ "\n",
      "\n",
      "Give insights on:\n",
      "- Market price trend\n",
      "- Demand-supply analysis\n",
      "- What to sell\n",
      "- Best time to sell\n" ])

  /** `GENERAL_GUIDE` */
  const GeneralGuide := Template(
    [ "\n",
      "You are an agriculture expert. ",
      "Give practical step-by-step ",
      "farming advice.\n",
      "\n",
      "Question: " ],
    [ "\n" ])

  /** `FARMING_TOPICS_EXAMPLES`: two example questions per topic key. */
  const TopicExamples: map<string, seq<string>> := map[
    "crops" := ["How to increase wheat yield in winter?",
                "Best practices for organic tomato farming?"],
    "soil" := ["How to improve soil fertility in black soil?",
               "How to measure soil pH at home?"],
    "pests" := ["Why are my chili plants getting curled leaves?",
                "Diagnosis for cotton bollworm attack?"],
    "irrigation" := ["How much water does sugarcane need weekly?",
                     "Best drip irrigation layout for 1 acre?"],
    "weather" := ["How will heavy rainfall affect maize crop?",
                  "Is it safe to spray pesticide before rain?"],
    "yield" := ["How to increase onion yield?",
                "Techniques to improve rice productivity."],
    "market" := ["What is the current soybean price trend?",
                 "Which crops give best profit this season?"],
    "general" := ["How to start integrated farming?",
                  "Which crop is suitable for my land?"]
  ]

  /** The eight topic keys of the template table. */
  const TopicKeys: set<string> := {"crops", "soil", "pests", "irrigation", "weather", "yield", "market", "general"}

  /** The example table has exactly the template table's eight keys. */
  lemma ExamplesCoverTopics()
    ensures TopicExamples.Keys == TopicKeys
  {
  }

  /** Each topic has two example questions. */
  lemma TwoExamplesPerTopic()
    ensures forall k :: k in TopicExamples ==> |TopicExamples[k]| == 2
  {
  }

  /**
   * The template table of `get_prompt_template`: each key's own template,
   * and `GENERAL_GUIDE` for any other key.
   */
  function TemplateFor(topic: string): (t: Template)
    ensures topic !in TopicKeys ==> t == GeneralGuide
    ensures topic == "crops" ==> t == CropGuide
    ensures topic == "soil" ==> t == SoilGuide
    ensures topic == "pests" ==> t == PestGuide
    ensures topic == "irrigation" ==> t == IrrigationGuide
    ensures topic == "weather" ==> t == WeatherGuide
    ensures topic == "yield" ==> t == YieldGuide
    ensures topic == "market" ==> t == MarketGuide
    ensures topic == "general" ==> t == GeneralGuide
  {
    match topic
    case "crops" => CropGuide
    case "soil" => SoilGuide
    case "pests" => PestGuide
    case "irrigation" => IrrigationGuide
    case "weather" => WeatherGuide
    case "yield" => YieldGuide
    case "market" => MarketGuide
    case "general" => GeneralGuide
    case _ => GeneralGuide
  }

  /**
   * `get_prompt_template`: the topic's template text, and `GENERAL_GUIDE`
   * for any key outside the eight, without an error.
   */
  function GetPromptTemplate(topic: string): (text: string)
    ensures topic !in TopicKeys ==> text == GeneralGuide.Text()
  {
    TemplateFor(topic).Text()
  }

  /** Prepends `p` to a successful result and passes a failure on. */
  function Prepend(p: string, r: Option<string>): Option<string> {
    match r
    case Some(s) => Some(p + s)
    case None => None
  }

  /**
   * `template.format(query=q)` for templates whose fields are all the bare
   * `{query}`: it becomes `q`, a doubled brace becomes a single one, and
   * any other brace gives `None`. That covers the errors Python raises for
   * a stray brace or an unknown field name; fields with a conversion,
   * format spec, index or attribute (`{query!r}`, `{query:>5}`,
   * `{query[0]}`, `{query.upper}`), which Python would accept, are not
   * modelled and give `None` too. The templates use none of them. Text
   * without braces is returned unchanged.
   */
  function Format(t: string, query: string): (r: Option<string>)
    ensures BraceFree(t) ==> r == Some(t)
    decreases |t|
  {
    if t == [] then Some([])
    else if t[0] == '{' then
      if |t| >= 2 && t[1] == '{' then Prepend("{", Format(t[2..], query))
      else if StartsWith(t, Field) then Prepend(query, Format(t[|Field|..], query))
      else None
    else if t[0] == '}' then
      if |t| >= 2 && t[1] == '}' then Prepend("}", Format(t[2..], query))
      else None
    else
      assert BraceFree(t) ==> BraceFree(t[1..]);
      assert [t[0]] + t[1..] == t;
      Prepend([t[0]], Format(t[1..], query))
  }

  /**
   * Formatting text with one field and no other brace inserts the query
   * once and keeps the text around it verbatim.
   */
  lemma {:induction false} FormatOnce(head: string, tail: string, query: string)
    requires BraceFree(head) && BraceFree(tail)
    ensures Format(head + Field + tail, query) == Some(head + query + tail)
    decreases |head|
  {
    var t := head + Field + tail;
    if head == [] {
      assert t[0] == '{' && t[1] == 'q';
      assert t[..|Field|] == Field;
      assert t[|Field|..] == tail;
      assert head + query + tail == query + tail;
    } else {
      assert t[0] == head[0];
      assert t[1..] == head[1..] + Field + tail;
      FormatOnce(head[1..], tail, query);
      assert [head[0]] + (head[1..] + query + tail) == head + query + tail;
    }
  }

  lemma CropGuideWellFormed()
    ensures CropGuide.WellFormed()
  {
    CropGuideHeadBraceFree();
    CropGuideTailBraceFree();
  }

  lemma CropGuideHeadBraceFree()
    ensures BraceFree(Concat(CropGuide.head))
  {
    BraceFreeConcat(CropGuide.head);
  }

  lemma CropGuideTailBraceFree()
    ensures BraceFree(Concat(CropGuide.tail))
  {
    BraceFreeConcat(CropGuide.tail);
  }

  lemma SoilGuideWellFormed()
    ensures SoilGuide.WellFormed()
  {
    SoilGuideHeadBraceFree();
    SoilGuideTailBraceFree();
  }

  lemma SoilGuideHeadBraceFree()
    ensures BraceFree(Concat(SoilGuide.head))
  {
    BraceFreeConcat(SoilGuide.head);
  }

  lemma SoilGuideTailBraceFree()
    ensures BraceFree(Concat(SoilGuide.tail))
  {
    BraceFreeConcat(SoilGuide.tail);
  }

  lemma PestGuideWellFormed()
    ensures PestGuide.WellFormed()
  {
    PestGuideHeadBraceFree();
    PestGuideTailBraceFree();
  }

  lemma PestGuideHeadBraceFree()
    ensures BraceFree(Concat(PestGuide.head))
  {
    BraceFreeConcat(PestGuide.head);
  }

  lemma PestGuideTailBraceFree()
    ensures BraceFree(Concat(PestGuide.tail))
  {
    BraceFreeConcat(PestGuide.tail);
  }

  lemma IrrigationGuideWellFormed()
    ensures IrrigationGuide.WellFormed()
  {
    IrrigationGuideHeadBraceFree();
    IrrigationGuideTailBraceFree();
  }

  lemma IrrigationGuideHeadBraceFree()
    ensures BraceFree(Concat(IrrigationGuide.head))
  {
    BraceFreeConcat(IrrigationGuide.head);
  }

  lemma IrrigationGuideTailBraceFree()
    ensures BraceFree(Concat(IrrigationGuide.tail))
  {
    BraceFreeConcat(IrrigationGuide.tail);
  }

  lemma WeatherGuideWellFormed()
    ensures WeatherGuide.WellFormed()
  {
    WeatherGuideHeadBraceFree();
    WeatherGuideTailBraceFree();
  }

  lemma WeatherGuideHeadBraceFree()
    ensures BraceFree(Concat(WeatherGuide.head))
  {
    BraceFreeConcat(WeatherGuide.head);
  }

  lemma WeatherGuideTailBraceFree()
    ensures BraceFree(Concat(WeatherGuide.tail))
  {
    BraceFreeConcat(WeatherGuide.tail);
  }

  lemma YieldGuideWellFormed()
    ensures YieldGuide.WellFormed()
  {
    YieldGuideHeadBraceFree();
    YieldGuideTailBraceFree();
  }

  lemma YieldGuideHeadBraceFree()
    ensures BraceFree(Concat(YieldGuide.head))
  {
    BraceFreeConcat(YieldGuide.head);
  }

  lemma YieldGuideTailBraceFree()
    ensures BraceFree(Concat(YieldGuide.tail))
  {
    BraceFreeConcat(YieldGuide.tail);
  }

  lemma MarketGuideWellFormed()
    ensures MarketGuide.WellFormed()
  {
    MarketGuideHeadBraceFree();
    MarketGuideTailBraceFree();
  }

  lemma MarketGuideHeadBraceFree()
    ensures BraceFree(Concat(MarketGuide.head))
  {
    BraceFreeConcat(MarketGuide.head);
  }

  lemma MarketGuideTailBraceFree()
    ensures BraceFree(Concat(MarketGuide.tail))
  {
    BraceFreeConcat(MarketGuide.tail);
  }

  lemma GeneralGuideWellFormed()
    ensures GeneralGuide.WellFormed()
  {
    GeneralGuideHeadBraceFree();
    GeneralGuideTailBraceFree();
  }

  lemma GeneralGuideHeadBraceFree()
    ensures BraceFree(Concat(GeneralGuide.head))
  {
    BraceFreeConcat(GeneralGuide.head);
  }

  lemma GeneralGuideTailBraceFree()
    ensures BraceFree(Concat(GeneralGuide.tail))
  {
    BraceFreeConcat(GeneralGuide.tail);
  }

  /** Every template a topic can select is well formed. */
  lemma TemplateForWellFormed(topic: string)
    ensures TemplateFor(topic).WellFormed()
  {
    match topic
    case "crops" => CropGuideWellFormed();
    case "soil" => SoilGuideWellFormed();
    case "pests" => PestGuideWellFormed();
    case "irrigation" => IrrigationGuideWellFormed();
    case "weather" => WeatherGuideWellFormed();
    case "yield" => YieldGuideWellFormed();
    case "market" => MarketGuideWellFormed();
    case _ => GeneralGuideWellFormed();
  }

  /**
   * For every topic key, known or not, formatting its template never raises:
   * the query appears once, between the template's own text before and
   * after the field.
   */
  lemma TemplateFormats(topic: string, query: string)
    ensures var t := TemplateFor(topic);
            Format(GetPromptTemplate(topic), query) == Some(Concat(t.head) + query + Concat(t.tail))
  {
    TemplateForWellFormed(topic);
    var t := TemplateFor(topic);
    FormatOnce(Concat(t.head), Concat(t.tail), query);
  }

  /** Text with one field and no other brace has its only `{` where the field opens. */
  lemma OnlyOpeningBrace(head: string, tail: string)
    requires BraceFree(head) && BraceFree(tail)
    ensures var text := head + Field + tail;
            && text[|head|..|head| + |Field|] == Field
            && forall i :: 0 <= i < |text| && text[i] == '{' ==> i == |head|
  {
    var text, at := head + Field + tail, |head|;
    forall i | 0 <= i < |text| && i != at
      ensures text[i] != '{'
    {
      if i < at {
        assert text[i] == head[i];
      } else if i >= at + |Field| {
        assert text[i] == tail[i - at - |Field|];
      } else {
        assert text[i] == Field[i - at];
      }
    }
    assert text[at..at + |Field|] == Field;
  }

  /** Every template holds exactly one `{`, the one that opens `{query}`. */
  lemma TemplateHasOneField(topic: string)
    ensures var text, at := GetPromptTemplate(topic), |Concat(TemplateFor(topic).head)|;
            && text[at..at + |Field|] == Field
            && forall i :: 0 <= i < |text| && text[i] == '{' ==> i == at
  {
    TemplateForWellFormed(topic);
    var t := TemplateFor(topic);
    OnlyOpeningBrace(Concat(t.head), Concat(t.tail));
  }
}

=== FILE: pystr.dfy ===
/**
 * The few Python `str` builtins the application relies on, stated over
 * `seq<char>`: `str.isspace` on one character, `str.split()` with no
 * argument, `str.strip()`, `str.startswith`, the negative slice `s[-n:]`
 * and `str(n)` for a natural number.
 */
module PyStr {
  import opened Wrappers

  /**
   * Python's whitespace: the characters for which `c.isspace()` holds, the
   * ASCII controls from tab to carriage return and from the file to the
   * unit separator, and the Unicode space separators and line breaks.
   */
  const Whitespace: set<char> := {
    '\t', '\n', '\U{0B}', '\U{0C}', '\r', '\U{1C}', '\U{1D}', '\U{1E}', '\U{1F}', ' ',
    '\U{85}', '\U{A0}', '\U{1680}',
    '\U{2000}', '\U{2001}', '\U{2002}', '\U{2003}', '\U{2004}', '\U{2005}',
    '\U{2006}', '\U{2007}', '\U{2008}', '\U{2009}', '\U{200A}',
    '\U{2028}', '\U{2029}', '\U{202F}', '\U{205F}', '\U{3000}'
  }

  /** `c.isspace()`. */
  predicate IsSpace(c: char) {
    c in Whitespace
  }

  /**
   * The whitespace table on characters a reader might doubt: the ASCII
   * controls from tab to carriage return, the file, group, record and unit
   * separators, the no-break and ideographic spaces are whitespace; the
   * zero-width space, the byte order mark and the Mongolian vowel separator
   * are not.
   */
  lemma IsSpaceExamples()
    ensures IsSpace(' ') && IsSpace('\t') && IsSpace('\n') && IsSpace('\r')
    ensures IsSpace('\U{0B}') && IsSpace('\U{0C}')
    ensures IsSpace('\U{1C}') && IsSpace('\U{1D}') && IsSpace('\U{1E}') && IsSpace('\U{1F}')
    ensures IsSpace('\U{85}')
    ensures IsSpace('\U{A0}') && IsSpace('\U{2003}') && IsSpace('\U{3000}')
    ensures !IsSpace('a') && !IsSpace('Z') && !IsSpace('\U{E9}') && !IsSpace('_') && !IsSpace('\U{08}') && !IsSpace('\U{0E}')
    ensures !IsSpace('\U{200B}') && !IsSpace('\U{FEFF}') && !IsSpace('\U{180E}')
  {
  }

  predicate AllSpace(s: string) {
    forall i :: 0 <= i < |s| ==> IsSpace(s[i])
  }

  predicate NoSpace(s: string) {
    forall i :: 0 <= i < |s| ==> !IsSpace(s[i])
  }

  /** Length of the longest whitespace-only prefix of `s`. */
  function LeadingSpace(s: string): (n: nat)
    ensures n <= |s|
    ensures AllSpace(s[..n])
    ensures n < |s| ==> !IsSpace(s[n])
  {
    if s == [] || !IsSpace(s[0]) then 0 else 1 + LeadingSpace(s[1..])
  }

  /** Length of the longest whitespace-free prefix of `s`. */
  function WordLength(s: string): (n: nat)
    ensures n <= |s|
    ensures NoSpace(s[..n])
    ensures n < |s| ==> IsSpace(s[n])
  {
    if s == [] || IsSpace(s[0]) then 0 else 1 + WordLength(s[1..])
  }

  /**
   * `s.split()`: the maximal runs of non-whitespace characters, in order.
   * No word is empty or holds whitespace, and there are none exactly when
   * the text is blank.
   */
  function Split(s: string): (words: seq<string>)
    ensures forall w <- words :: w != [] && NoSpace(w)
    ensures words == [] <==> AllSpace(s)
    decreases |s|
  {
    var i := LeadingSpace(s);
    if i == |s| then
      assert s[..i] == s;
      []
    else
      var n := WordLength(s[i..]);
      assert s[i..][..n] == s[i..i + n];
      [s[i..i + n]] + Split(s[i + n..])
  }

  /**
   * Reference count of words: one for every non-whitespace character that
   * follows whitespace or the start of the text (`afterSpace` says whether
   * the character before `s` was whitespace, or absent).
   */
  function WordStarts(s: string, afterSpace: bool): nat {
    if s == [] then 0
    else (if afterSpace && !IsSpace(s[0]) then 1 else 0) + WordStarts(s[1..], IsSpace(s[0]))
  }

  lemma {:induction false} SkipSpace(s: string, m: nat, afterSpace: bool)
    requires 0 < m <= |s| && AllSpace(s[..m])
    ensures WordStarts(s, afterSpace) == WordStarts(s[m..], true)
    decreases m
  {
    assert IsSpace(s[..m][0]);
    if m > 1 {
      assert s[1..][..m - 1] == s[..m][1..];
      SkipSpace(s[1..], m - 1, true);
      assert s[1..][m - 1..] == s[m..];
    }
  }

  lemma {:induction false} SkipWord(s: string, m: nat)
    requires m <= |s| && NoSpace(s[..m])
    requires m == |s| || IsSpace(s[m])
    ensures WordStarts(s, false) == WordStarts(s[m..], true)
    decreases m
  {
    if m == 0 {
      if |s| > 1 {
        SkipSpace(s, 1, false);
      }
    } else {
      assert !IsSpace(s[..m][0]);
      assert s[1..][..m - 1] == s[..m][1..];
      SkipWord(s[1..], m - 1);
      assert s[1..][m - 1..] == s[m..];
    }
  }

  /** A text that starts with a word counts that word, then the rest. */
  lemma {:induction false} SkipFirstWord(t: string)
    requires t != [] && !IsSpace(t[0])
    ensures WordStarts(t, true) == 1 + WordStarts(t[WordLength(t)..], true)
  {
    var n := WordLength(t);
    assert !IsSpace(t[..n][0]);
    assert t[1..][..n - 1] == t[..n][1..];
    SkipWord(t[1..], n - 1);
    assert t[1..][n - 1..] == t[n..];
  }

  /** `len(s.split())` is the number of word starts of `s`. */
  lemma {:induction false} SplitCountsWordStarts(s: string)
    ensures |Split(s)| == WordStarts(s, true)
    decreases |s|
  {
    var i := LeadingSpace(s);
    if i < |s| {
      var n := WordLength(s[i..]);
      FirstWordStarts(s, i, n);
      SplitFirstWord(s, i, n);
      SplitCountsWordStarts(s[i + n..]);
    } else if i > 0 {
      SkipSpace(s, i, true);
    }
  }

  /** A non-blank text splits into its first word and the split of the rest. */
  lemma SplitFirstWord(s: string, i: nat, n: nat)
    requires i == LeadingSpace(s) < |s| && n == WordLength(s[i..])
    ensures |Split(s)| == 1 + |Split(s[i + n..])|
  {
  }

  /** The first word of a non-blank text counts one word start. */
  lemma FirstWordStarts(s: string, i: nat, n: nat)
    requires i == LeadingSpace(s) < |s| && n == WordLength(s[i..])
    ensures WordStarts(s, true) == 1 + WordStarts(s[i + n..], true)
  {
    if i > 0 {
      SkipSpace(s, i, true);
    } else {
      assert s[i..] == s;
    }
    var t := s[i..];
    SkipFirstWord(t);
    assert t[n..] == s[i + n..];
  }

  /** Length of the longest whitespace-only suffix of `s`. */
  function TrailingSpace(s: string): (n: nat)
    ensures n <= |s|
    ensures forall k :: |s| - n <= k < |s| ==> IsSpace(s[k])
    ensures n < |s| ==> !IsSpace(s[|s| - n - 1])
  {
    if s == [] || !IsSpace(s[|s| - 1]) then 0
    else
      var n := TrailingSpace(s[..|s| - 1]);
      assert forall k :: |s| - 1 - n <= k < |s| - 1 ==> s[k] == s[..|s| - 1][k];
      1 + n
  }

  /**
   * `s.strip()`: the text between the leading and the trailing whitespace;
   * it neither starts nor ends with whitespace, and everything cut off is
   * whitespace.
   */
  function Strip(s: string): (r: string)
    ensures r == [] || (!IsSpace(r[0]) && !IsSpace(r[|r| - 1]))
    ensures exists a :: 0 <= a <= |s| - |r| && s[a..a + |r|] == r
                && AllSpace(s[..a]) && AllSpace(s[a + |r|..])
  {
    var a := LeadingSpace(s);
    var n := TrailingSpace(s[a..]);
    StripBounds(s, a, n);
    s[a..|s| - n]
  }

  /** The facts behind `Strip`, with the two whitespace runs as given. */
  lemma StripBounds(s: string, a: nat, n: nat)
    requires a <= |s| && n <= |s| - a
    requires AllSpace(s[..a]) && (a < |s| ==> !IsSpace(s[a]))
    requires forall k :: |s| - a - n <= k < |s| - a ==> IsSpace(s[a..][k])
    requires a + n < |s| ==> !IsSpace(s[a..][|s| - a - n - 1])
    ensures var r := s[a..|s| - n];
            && (r == [] || (!IsSpace(r[0]) && !IsSpace(r[|r| - 1])))
            && s[a..a + |r|] == r && AllSpace(s[a + |r|..])
  {
    assert forall k :: |s| - n <= k < |s| ==> s[k] == s[a..][k - a];
  }

  /** `s.startswith(prefix)`. */
  predicate StartsWith(s: string, prefix: string) {
    |prefix| <= |s| && s[..|prefix|] == prefix
  }

  /** `sub in s` for two strings. */
  predicate IsInfix(sub: string, s: string) {
    exists i :: 0 <= i <= |s| && StartsWith(s[i..], sub)
  }


  /**
   * The Python slice `s[-n:]` for a positive `n`: the last `n` elements, or
   * all of them when there are fewer.
   */
  function LastN<T>(s: seq<T>, n: nat): (r: seq<T>)
    requires n > 0
    ensures |r| == Min(n, |s|)
    ensures s == s[..|s| - |r|] + r
  {
    var start := |s| - n;
    if start < 0 then s else s[start..]
  }

  predicate IsDigit(c: char) {
    '0' <= c <= '9'
  }

  function DigitChar(d: nat): (c: char)
    requires d < 10
    ensures IsDigit(c)
  {
    ['0', '1', '2', '3', '4', '5', '6', '7', '8', '9'][d]
  }

  /** `str(n)`: the decimal digits of `n`, without leading zeros. */
  function NatToString(n: nat): (r: string)
    ensures r != []
    ensures forall i :: 0 <= i < |r| ==> IsDigit(r[i])
    ensures n >= 10 ==> |r| >= 2
  {
    if n < 10 then [DigitChar(n)] else NatToString(n / 10) + [DigitChar(n % 10)]
  }

  /** Distinct numbers print differently. */
  lemma {:induction false} NatToStringInjective(m: nat, n: nat)
    requires NatToString(m) == NatToString(n)
    ensures m == n
    decreases n
  {
    if m >= 10 && n >= 10 {
      var a, b := NatToString(m), NatToString(n);
      assert a[|a| - 1] == DigitChar(m % 10) && b[|b| - 1] == DigitChar(n % 10);
      assert a[..|a| - 1] == NatToString(m / 10) && b[..|b| - 1] == NatToString(n / 10);
      NatToStringInjective(m / 10, n / 10);
    }
  }
}

=== FILE: session.dfy ===
/**
 * The session of app.py: the state kept across reruns of the page, the
 * sidebar actions that change it (Save Profile, Clear History), and one
 * pass of the query-processing block when a question is submitted.
 *
 * Each button press is one `Step` from a state to a state. The page's
 * widgets become inputs, the system instruction and the network become
 * parameters, and the clock readings are passed in as strings.
 */
module Session {
  import opened Wrappers
  import opened PyStr
  import Utils
  import Checklist
  import Prompts
  import Completion

  /** `st.session_state.farmer_profile` once saved. */
  datatype Profile = Profile(location: string, farmSize: string, cropType: string, soilType: string, updated: string)

  /**
   * The session state. `profile` is `None` for the initial empty dict;
   * `checklists` maps a checklist key to its tick marks.
   */
  datatype State = State(
    history: seq<Completion.Message>,
    profile: Option<Profile>,
    checklists: map<string, seq<bool>>,
    apiCalls: nat,
    tokensUsed: real)

  /** The session state as stored, with any key possibly missing. */
  datatype Stored = Stored(
    history: Option<seq<Completion.Message>>,
    profile: Option<Option<Profile>>,
    checklists: Option<map<string, seq<bool>>>,
    apiCalls: Option<nat>,
    tokensUsed: Option<real>)

  /** The state of a first visit. */
  const Fresh := State([], None, map[], 0, 0.0)

  /**
   * `init_session_state`: a key already present keeps its value, a missing
   * one gets its default.
   */
  function Init(stored: Stored): (s: State)
    ensures stored == Stored(None, None, None, None, None) ==> s == Fresh
    ensures stored.history.Some? ==> s.history == stored.history.value
    ensures stored.profile.Some? ==> s.profile == stored.profile.value
    ensures stored.checklists.Some? ==> s.checklists == stored.checklists.value
    ensures stored.apiCalls.Some? ==> s.apiCalls == stored.apiCalls.value
    ensures stored.tokensUsed.Some? ==> s.tokensUsed == stored.tokensUsed.value
    ensures stored.history.None? ==> s.history == []
    ensures stored.profile.None? ==> s.profile == None
    ensures stored.checklists.None? ==> s.checklists == map[]
    ensures stored.apiCalls.None? ==> s.apiCalls == 0
    ensures stored.tokensUsed.None? ==> s.tokensUsed == 0.0
  {
    State(stored.history.GetOr([]), stored.profile.GetOr(None), stored.checklists.GetOr(map[]),
          stored.apiCalls.GetOr(0), stored.tokensUsed.GetOr(0.0))
  }

  /** Every key of a state, stored. */
  function Persist(s: State): Stored {
    Stored(Some(s.history), Some(s.profile), Some(s.checklists), Some(s.apiCalls), Some(s.tokensUsed))
  }

  /** Running the initialisation on every rerun never disturbs a session. */
  lemma InitKeepsSession(s: State)
    ensures Init(Persist(s)) == s
  {
  }

  // ---------------------------------------------------------------------
  // The inputs of one pass.

  /** What the user did on this pass. */
  datatype Action =
    | Ask(generate: bool, simplify: bool, expand: bool)
    | SaveProfile(location: string, farmSize: string, cropType: string, soilType: string)
    | ClearHistory

  /**
   * The widget values the page reads: the question, the key, the topic key
   * and its label, the advanced settings, and the clock readings for the
   * profile (minutes) and the export (full time).
   */
  datatype Inputs = Inputs(
    query: string,
    apiKey: string,
    topic: string,
    topicLabel: string,
    model: string,
    maxTokens: int,
    stream: bool,
    includeContext: bool,
    profileTime: string,
    exportTime: string)

  /**
   * What lies outside the page: the system instruction, the network, the
   * JSON parser, and the checkbox widget, which answers with the tick mark
   * the user leaves under a widget key given the value it is created with.
   */
  datatype World = World(
    system: string,
    respond: Completion.Request -> Completion.HttpOutcome,
    parse: string -> Option<Completion.Json>,
    checkbox: (string, bool) -> bool)

  /** What the pass shows. */
  datatype Outcome =
    | Idle
    | ProfileSaved
    | HistoryCleared
    | AskForQuestion
    | AskForKey
    | NoAnswer(prompt: string)
    | Advice(prompt: string, answer: string, checklist: Option<seq<string>>, completed: nat, markdown: string)
    | ChecklistFailure(prompt: string, answer: string)

  datatype StepResult = StepResult(state: State, outcome: Outcome)

  /**
   * The sidebar warning under the key field: shown for a non-empty key that
   * fails the format check. It is only a warning; the key is still used.
   */
  function KeyWarning(apiKey: string): (shown: bool)
    ensures shown <==> apiKey != [] && (|apiKey| <= Utils.MaxRejectedKeyLength || ' ' in apiKey)
  {
    apiKey != [] && !Utils.ValidateApiKeyFormat(apiKey)
  }

  // ---------------------------------------------------------------------
  // The prompt.

  const SimplifyNote := "\n\nSimplify the previous response for a farmer with limited technical knowledge."
  const ExpandNote := "\n\nExpand the previous response with more scientific explanation and case studies."

  /** The modifier: set by Simplify, then overwritten by Expand. */
  function Modifier(simplify: bool, expand: bool): string {
    if expand then ExpandNote else if simplify then SimplifyNote else ""
  }

  /** The profile block, present only once a profile has been saved. */
  function ProfileContext(profile: Option<Profile>): string {
    match profile
    case None => ""
    case Some(p) =>
      "\n\nFarmer Profile:\n"
      + "- Location: " + p.location + "\n"
      + "- Farm Size: " + p.farmSize + "\n"
      + "- Crop: " + p.cropType + "\n"
      + "- Soil Type: " + p.soilType + "\n"
  }

  /**
   * `prompt_template.format(query=query) + profile_context + modifier`. The
   * format never fails: every template has one field and no other brace.
   */
  function FinalPrompt(topic: string, query: string, profile: Option<Profile>, simplify: bool, expand: bool): (p: string)
    ensures var t := Prompts.TemplateFor(topic);
            p == Prompts.Concat(t.head) + query + Prompts.Concat(t.tail) + ProfileContext(profile) + Modifier(simplify, expand)
  {
    Prompts.TemplateFormats(topic, query);
    Prompts.Format(Prompts.GetPromptTemplate(topic), query).value + ProfileContext(profile) + Modifier(simplify, expand)
  }

  /** The earlier messages sent along: the last six, or none when context is off. */
  function HistoryContext(history: seq<Completion.Message>, includeContext: bool): Option<seq<Completion.Message>> {
    if includeContext then Some(LastN(history, Completion.ContextWindow)) else None
  }

  // ---------------------------------------------------------------------
  // The checklist.

  /** `f"{topic}_{len(history)}"` */
  function ChecklistKey(topic: string, count: nat): string {
    topic + "_" + NatToString(count)
  }

  /** The key of the checkbox for item `i` of a checklist. */
  function WidgetKey(key: string, i: nat): string {
    key + "_" + NatToString(i)
  }

  /** The stored tick marks after rendering the first `n` checkboxes. */
  function Ticked(key: string, stored: seq<bool>, n: nat, checkbox: (string, bool) -> bool): (r: seq<bool>)
    ensures |r| == |stored|
  {
    seq(|stored|, j requires 0 <= j < |stored| => if j < n then checkbox(WidgetKey(key, j), stored[j]) else stored[j])
  }

  /** `sum(...)` over tick marks: the number of ticked boxes. */
  function CountTrue(marks: seq<bool>): (c: nat)
    ensures c <= |marks|
    ensures c == multiset(marks)[true]
  {
    if marks == [] then 0
    else
      assert marks == [marks[0]] + marks[1..];
      (if marks[0] then 1 else 0) + CountTrue(marks[1..])
  }

  /**
   * The rendering loop as written: item `i` reads the stored mark `i`
   * (`IndexError` past the end), creates its checkbox with that value and
   * stores what the box shows. `failed` reports the `IndexError`; the marks
   * rendered before it stay stored.
   */
  method RenderChecklist(key: string, stored: seq<bool>, n: nat, checkbox: (string, bool) -> bool)
    returns (marks: seq<bool>, failed: bool)
    ensures failed <==> |stored| < n
    ensures |marks| == |stored|
    ensures forall j :: 0 <= j < |marks| && j < n ==> marks[j] == checkbox(WidgetKey(key, j), stored[j])
    ensures forall j :: n <= j < |marks| ==> marks[j] == stored[j]
  {
    marks := stored;
    failed := false;
    var i := 0;
    while i < n
      invariant 0 <= i <= n && i <= |marks|
      invariant |marks| == |stored|
      invariant forall j :: 0 <= j < i ==> marks[j] == checkbox(WidgetKey(key, j), stored[j])
      invariant forall j :: i <= j < |marks| ==> marks[j] == stored[j]
    {
      if i >= |marks| {
        failed := true;
        return;
      }
      marks := marks[i := checkbox(WidgetKey(key, i), marks[i])];
      i := i + 1;
    }
  }

  /** The loop computes the reference marks. */
  lemma RenderIsTicked(key: string, stored: seq<bool>, n: nat, checkbox: (string, bool) -> bool, marks: seq<bool>)
    requires |marks| == |stored|
    requires forall j :: 0 <= j < |marks| && j < n ==> marks[j] == checkbox(WidgetKey(key, j), stored[j])
    requires forall j :: n <= j < |marks| ==> marks[j] == stored[j]
    ensures marks == Ticked(key, stored, n, checkbox)
  {
  }

  // ---------------------------------------------------------------------
  // One pass.

  /** The bookkeeping of a truthy answer: one call, its tokens, two messages. */
  function Record(s: State, query: string, prompt: string, answer: string): State
  {
    s.(history := s.history + [Completion.Message(Completion.User, query), Completion.Message(Completion.Assistant, answer)],
       apiCalls := s.apiCalls + 1,
       tokensUsed := s.tokensUsed + Utils.EstimateTokens(prompt + answer))
  }

  /**
   * The checklist block after an answer has been recorded in `s`: the
   * entry under the key is created all unticked only when missing, then
   * every checkbox writes its mark back.
   */
  function ShowAnswer(s: State, inputs: Inputs, world: World, prompt: string, answer: string): StepResult {
    var checklist := Checklist.ExtractChecklistItems(answer);
    var markdown := Utils.ExportToMarkdown(inputs.query, answer, inputs.topicLabel, checklist, inputs.exportTime);
    match checklist
    case None => StepResult(s, Advice(prompt, answer, None, 0, markdown))
    case Some(items) =>
      var key := ChecklistKey(inputs.topic, |s.history|);
      var stored := if key in s.checklists then s.checklists[key] else seq(|items|, _ => false);
      var n := |items|;
      var marks := Ticked(key, stored, n, world.checkbox);
      var s' := s.(checklists := s.checklists[key := marks]);
      // an IndexError past the stored marks, or a progress value above 1
      if |stored| < n || CountTrue(marks) > n then StepResult(s', ChecklistFailure(prompt, answer))
      else StepResult(s', Advice(prompt, answer, checklist, CountTrue(marks), markdown))
  }

  /** The answer `call_openrouter_api` gives for the prompt of this pass. */
  function Answer(s: State, simplify: bool, expand: bool, inputs: Inputs, world: World): Option<string> {
    Completion.CallApi(world.system, FinalPrompt(inputs.topic, inputs.query, s.profile, simplify, expand),
                       inputs.apiKey, inputs.model, inputs.maxTokens, inputs.stream,
                       HistoryContext(s.history, inputs.includeContext), world.respond, world.parse)
  }

  /** The query-processing block for a press of one of the three buttons. */
  function Process(s: State, simplify: bool, expand: bool, inputs: Inputs, world: World): StepResult {
    if inputs.query == [] then StepResult(s, AskForQuestion)
    else if inputs.apiKey == [] then StepResult(s, AskForKey)
    else
      var prompt := FinalPrompt(inputs.topic, inputs.query, s.profile, simplify, expand);
      Conclude(s, inputs, world, prompt, Answer(s, simplify, expand, inputs, world))
  }

  /** `if response:` and what follows, for the answer to `prompt`. */
  function Conclude(s: State, inputs: Inputs, world: World, prompt: string, response: Option<string>): StepResult {
    if response.None? || response.value == [] then StepResult(s, NoAnswer(prompt))
    else ShowAnswer(Record(s, inputs.query, prompt, response.value), inputs, world, prompt, response.value)
  }

  /** One pass of the page for one user action. */
  function Step(s: State, action: Action, inputs: Inputs, world: World): StepResult {
    match action
    case SaveProfile(location, farmSize, cropType, soilType) =>
      StepResult(s.(profile := Some(Profile(location, farmSize, cropType, soilType, inputs.profileTime))), ProfileSaved)
    case ClearHistory =>
      StepResult(s.(history := [], checklists := map[]), HistoryCleared)
    case Ask(generate, simplify, expand) =>
      if generate || simplify || expand then Process(s, simplify, expand, inputs, world)
      else StepResult(s, Idle)
  }

  // ---------------------------------------------------------------------
  // The topic selector.

  /** `topic_map`: the label shown in the selector and the topic key it picks. */
  const TopicMap: map<string, string> := map[
    "\U{1F331} Crop Guidance" := "crops",
    "\U{1F33E} Soil & Fertility" := "soil",
    "\U{1F41B} Pest Diagnosis" := "pests",
    "\U{1F4A7} Irrigation Planning" := "irrigation",
    "\U{1F326} Weather & Climate Impact" := "weather",
    "\U{1F4C8} Yield Optimization" := "yield",
    "\U{1F4E6} Market Prices" := "market",
    "\U{1F4DA} General Advice" := "general"]

  /**
   * The selector offers exactly the template table's eight keys, and none
   * of them holds the `_` that separates a checklist key's topic from its
   * count.
   */
  lemma TopicMapCoversTemplates()
    ensures TopicMap.Values == Prompts.TopicKeys
    ensures forall shown :: shown in TopicMap ==> '_' !in TopicMap[shown]
  {
    TopicMapValues();
    assert forall t :: t in Prompts.TopicKeys ==> '_' !in t;
  }

  lemma TopicMapValues()
    ensures TopicMap.Values == Prompts.TopicKeys
  {
    assert "\U{1F331} Crop Guidance" in TopicMap;
    assert "\U{1F33E} Soil & Fertility" in TopicMap;
    assert "\U{1F41B} Pest Diagnosis" in TopicMap;
    assert "\U{1F4A7} Irrigation Planning" in TopicMap;
    assert "\U{1F326} Weather & Climate Impact" in TopicMap;
    assert "\U{1F4C8} Yield Optimization" in TopicMap;
    assert "\U{1F4E6} Market Prices" in TopicMap;
    assert "\U{1F4DA} General Advice" in TopicMap;
  }

  // ---------------------------------------------------------------------
  // Properties of one pass.

  /**
   * Expand wins over Simplify; with neither pressed there is no modifier.
   */
  lemma ModifierChoice(simplify: bool, expand: bool)
    ensures expand ==> Modifier(simplify, expand) == ExpandNote
    ensures simplify && !expand ==> Modifier(simplify, expand) == SimplifyNote
    ensures Modifier(simplify, expand) == [] <==> !simplify && !expand
  {
  }

  /** Without a saved profile the prompt is the formatted template and the modifier alone. */
  lemma PromptWithoutProfile(topic: string, query: string, simplify: bool, expand: bool)
    ensures var t := Prompts.TemplateFor(topic);
            FinalPrompt(topic, query, None, simplify, expand)
            == Prompts.Concat(t.head) + query + Prompts.Concat(t.tail) + Modifier(simplify, expand)
  {
    var t := Prompts.TemplateFor(topic);
    AppendEmpty(Prompts.Concat(t.head) + query + Prompts.Concat(t.tail), Modifier(simplify, expand));
  }

  /** The question reaches the prompt verbatim, right after the template's lead-in. */
  lemma PromptCarriesQuery(topic: string, query: string, profile: Option<Profile>, simplify: bool, expand: bool)
    ensures var p, at := FinalPrompt(topic, query, profile, simplify, expand), |Prompts.Concat(Prompts.TemplateFor(topic).head)|;
            at + |query| <= |p| && p[at..at + |query|] == query
  {
    var t := Prompts.TemplateFor(topic);
    var head, tail := Prompts.Concat(t.head), Prompts.Concat(t.tail);
    var rest := tail + ProfileContext(profile) + Modifier(simplify, expand);
    assert FinalPrompt(topic, query, profile, simplify, expand) == head + query + rest by {
      AppendAssoc(head + query, tail + ProfileContext(profile), Modifier(simplify, expand));
      AppendAssoc(head + query, tail, ProfileContext(profile));
    }
    MiddleAt(head, query, rest);
  }

  /**
   * Validation comes first and in order: an empty question is reported
   * even when the key is missing too, and neither report calls the API or
   * changes the session. Without a button nothing happens.
   */
  lemma ValidationOrder(s: State, generate: bool, simplify: bool, expand: bool, inputs: Inputs, world: World)
    ensures !generate && !simplify && !expand ==>
              Step(s, Ask(generate, simplify, expand), inputs, world) == StepResult(s, Idle)
    ensures (generate || simplify || expand) && inputs.query == [] ==>
              Step(s, Ask(generate, simplify, expand), inputs, world) == StepResult(s, AskForQuestion)
    ensures (generate || simplify || expand) && inputs.query != [] && inputs.apiKey == [] ==>
              Step(s, Ask(generate, simplify, expand), inputs, world) == StepResult(s, AskForKey)
  {
  }

  /**
   * The context sent along: with context on, the last six messages of the
   * history in order between the system message and the prompt; with it off
   * or with no history yet, only those two.
   */
  lemma ContextSent(system: string, prompt: string, history: seq<Completion.Message>, includeContext: bool)
    ensures var msgs := Completion.BuildMessages(system, prompt, HistoryContext(history, includeContext));
            && (!includeContext || history == [] ==> |msgs| == 2)
            && (includeContext ==>
                  var k := Min(Completion.ContextWindow, |history|);
                  |msgs| == k + 2 && msgs[1..|msgs| - 1] == history[|history| - k..])
  {
    if includeContext {
      var last := LastN(history, Completion.ContextWindow);
      assert last == history[|history| - |last|..];
      var k := Min(Completion.ContextWindow, |last|);
      assert last[|last| - k..] == last;
    }
  }

  /** An answer that is missing or empty leaves the session as it was. */
  lemma NoAnswerKeepsState(s: State, inputs: Inputs, world: World, prompt: string, response: Option<string>)
    requires response.None? || response.value == []
    ensures Conclude(s, inputs, world, prompt, response) == StepResult(s, NoAnswer(prompt))
  {
  }

  /**
   * Showing an answer touches nothing but the checklist entry under the
   * answer's key, which exists afterwards exactly when it existed before or
   * the answer holds a checklist.
   */
  lemma ShowAnswerFrame(r: State, inputs: Inputs, world: World, prompt: string, answer: string)
    ensures var out := ShowAnswer(r, inputs, world, prompt, answer).state;
            var key := ChecklistKey(inputs.topic, |r.history|);
            && out.history == r.history && out.profile == r.profile
            && out.apiCalls == r.apiCalls && out.tokensUsed == r.tokensUsed
            && (forall k :: k != key ==> (k in out.checklists <==> k in r.checklists))
            && (forall k :: k != key && k in r.checklists ==> out.checklists[k] == r.checklists[k])
            && (key in out.checklists <==> key in r.checklists || Checklist.ExtractChecklistItems(answer).Some?)
  {
  }

  /**
   * A non-empty answer is recorded: one more call, its tokens added, the
   * question and the answer appended to the history in that order, the
   * profile untouched, and no checklist entry changed but the one under
   * this answer's key.
   */
  lemma AnswerRecorded(s: State, inputs: Inputs, world: World, prompt: string, answer: string)
    requires answer != []
    ensures var r := Conclude(s, inputs, world, prompt, Some(answer)).state;
            var key := ChecklistKey(inputs.topic, |s.history| + 2);
            && r.apiCalls == s.apiCalls + 1
            && r.tokensUsed == s.tokensUsed + Utils.EstimateTokens(prompt + answer)
            && r.history == s.history + [Completion.Message(Completion.User, inputs.query),
                                         Completion.Message(Completion.Assistant, answer)]
            && r.profile == s.profile
            && (forall k :: k != key ==> (k in r.checklists <==> k in s.checklists))
            && (forall k :: k != key && k in s.checklists ==> r.checklists[k] == s.checklists[k])
            && (key in r.checklists <==> key in s.checklists || Checklist.ExtractChecklistItems(answer).Some?)
  {
    ShowAnswerFrame(Record(s, inputs.query, prompt, answer), inputs, world, prompt, answer);
  }

  /**
   * A submitted question with both fields filled reaches the API with the
   * composed prompt, whether or not the key passes the format check, and
   * the pass then goes on with its answer.
   */
  lemma SubmittedQuestion(s: State, simplify: bool, expand: bool, inputs: Inputs, world: World)
    requires inputs.query != [] && inputs.apiKey != []
    ensures Process(s, simplify, expand, inputs, world)
            == Conclude(s, inputs, world, FinalPrompt(inputs.topic, inputs.query, s.profile, simplify, expand),
                        Answer(s, simplify, expand, inputs, world))
  {
  }

  /**
   * The entry under a checklist key is created all unticked only when the
   * key is missing; an existing entry is never reset, each box starting
   * from its stored mark.
   */
  lemma ChecklistEntry(s: State, inputs: Inputs, world: World, prompt: string, answer: string)
    requires Checklist.ExtractChecklistItems(answer).Some?
    ensures var items := Checklist.ExtractChecklistItems(answer).value;
            var key := ChecklistKey(inputs.topic, |s.history|);
            var r := ShowAnswer(s, inputs, world, prompt, answer).state;
            && key in r.checklists
            && (key !in s.checklists ==>
                  r.checklists[key] == Ticked(key, seq(|items|, _ => false), |items|, world.checkbox))
            && (key in s.checklists ==>
                  r.checklists[key] == Ticked(key, s.checklists[key], |items|, world.checkbox))
  {
  }

  /** Saving the profile replaces it, stamped with the time, and nothing else. */
  lemma SaveProfileOnly(s: State, location: string, farmSize: string, cropType: string, soilType: string,
                        inputs: Inputs, world: World)
    ensures var r := Step(s, SaveProfile(location, farmSize, cropType, soilType), inputs, world);
            && r.state.profile == Some(Profile(location, farmSize, cropType, soilType, inputs.profileTime))
            && r.state.history == s.history && r.state.checklists == s.checklists
            && r.state.apiCalls == s.apiCalls && r.state.tokensUsed == s.tokensUsed
            && r.outcome == ProfileSaved
  {
  }

  /**
   * Clearing the history forgets the conversation and the checklists but
   * keeps the profile and the usage counters.
   */
  lemma ClearHistoryKeepsCounters(s: State, inputs: Inputs, world: World)
    ensures var r := Step(s, ClearHistory, inputs, world).state;
            && r.history == [] && r.checklists == map[]
            && r.profile == s.profile && r.apiCalls == s.apiCalls && r.tokensUsed == s.tokensUsed
  {
  }

  /** The usage counters never go down, and a pass makes at most one call. */
  lemma CountersGrow(s: State, action: Action, inputs: Inputs, world: World)
    ensures var r := Step(s, action, inputs, world).state;
            r.apiCalls >= s.apiCalls && r.tokensUsed >= s.tokensUsed
            && r.apiCalls <= s.apiCalls + 1
  {
    if action.Ask? && (action.generate || action.simplify || action.expand)
       && inputs.query != [] && inputs.apiKey != [] {
      var prompt := FinalPrompt(inputs.topic, inputs.query, s.profile, action.simplify, action.expand);
      ConcludeCounters(s, inputs, world, prompt, Answer(s, action.simplify, action.expand, inputs, world));
    }
  }

  lemma ConcludeCounters(s: State, inputs: Inputs, world: World, prompt: string, response: Option<string>)
    ensures var r := Conclude(s, inputs, world, prompt, response).state;
            r.apiCalls >= s.apiCalls && r.tokensUsed >= s.tokensUsed
            && r.apiCalls <= s.apiCalls + 1
  {
    if response.Some? && response.value != [] {
      ShowAnswerFrame(Record(s, inputs.query, prompt, response.value), inputs, world, prompt, response.value);
    }
  }

  // ---------------------------------------------------------------------
  // Checklist keys are never reused.

  /** Position of the first `_` in `s`, or `|s|`. */
  function FirstUnderscore(s: string): (i: nat)
    ensures i <= |s|
    ensures forall j :: 0 <= j < i ==> s[j] != '_'
    ensures i < |s| ==> s[i] == '_'
  {
    if s == [] || s[0] == '_' then 0 else 1 + FirstUnderscore(s[1..])
  }

  /** A key's topic ends at its first `_`. */
  lemma KeySplits(topic: string, count: nat)
    requires '_' !in topic
    ensures FirstUnderscore(ChecklistKey(topic, count)) == |topic|
  {
    var k := ChecklistKey(topic, count);
    assert k[|topic|] == '_';
    assert forall j :: 0 <= j < |topic| ==> k[j] == topic[j];
  }

  /** For topics without `_`, a key names its topic and its count. */
  lemma KeyInjective(t1: string, m1: nat, t2: string, m2: nat)
    requires '_' !in t1 && '_' !in t2
    requires ChecklistKey(t1, m1) == ChecklistKey(t2, m2)
    ensures t1 == t2 && m1 == m2
  {
    var k := ChecklistKey(t1, m1);
    KeySplits(t1, m1);
    KeySplits(t2, m2);
    assert |t1| == |t2|;
    assert t1 == k[..|t1|] == t2;
    assert NatToString(m1) == k[|t1| + 1..] == NatToString(m2);
    NatToStringInjective(m1, m2);
  }

  /**
   * The session invariant: the history alternates question and answer, and
   * every checklist key was made from an underscore-free topic and a
   * history length no greater than the current one.
   */
  ghost predicate Consistent(s: State) {
    && |s.history| % 2 == 0
    && (forall i :: 0 <= i < |s.history| ==>
          s.history[i].role == (if i % 2 == 0 then Completion.User else Completion.Assistant))
    && (forall k :: k in s.checklists ==>
          exists t: string, m: nat :: '_' !in t && m <= |s.history| && k == ChecklistKey(t, m))
    && s.tokensUsed >= 0.0
  }

  /** A first visit is consistent. */
  lemma FreshConsistent()
    ensures Consistent(Init(Stored(None, None, None, None, None)))
  {
  }

  /** The key of the next answer is not in use yet. */
  lemma NextKeyFresh(s: State, topic: string)
    requires Consistent(s) && '_' !in topic
    ensures ChecklistKey(topic, |s.history| + 2) !in s.checklists
  {
    var next := ChecklistKey(topic, |s.history| + 2);
    forall k | k in s.checklists
      ensures k != next
    {
      var t: string, m: nat :| '_' !in t && m <= |s.history| && k == ChecklistKey(t, m);
      if k == next {
        KeyInjective(t, m, topic, |s.history| + 2);
      }
    }
  }

  /**
   * Every pass keeps the session consistent, for any topic the selector
   * can produce.
   */
  lemma StepConsistent(s: State, action: Action, inputs: Inputs, world: World)
    requires Consistent(s) && '_' !in inputs.topic
    ensures Consistent(Step(s, action, inputs, world).state)
  {
    if action.Ask? && (action.generate || action.simplify || action.expand)
       && inputs.query != [] && inputs.apiKey != [] {
      var prompt := FinalPrompt(inputs.topic, inputs.query, s.profile, action.simplify, action.expand);
      ConcludeConsistent(s, inputs, world, prompt, Answer(s, action.simplify, action.expand, inputs, world));
    }
  }

  lemma ConcludeConsistent(s: State, inputs: Inputs, world: World, prompt: string, response: Option<string>)
    requires Consistent(s) && '_' !in inputs.topic
    ensures Consistent(Conclude(s, inputs, world, prompt, response).state)
  {
    if response.Some? && response.value != [] {
      var r := Record(s, inputs.query, prompt, response.value);
      RecordConsistent(s, inputs.query, prompt, response.value);
      ShowAnswerConsistent(r, inputs, world, prompt, response.value);
    }
  }

  lemma RecordConsistent(s: State, query: string, prompt: string, answer: string)
    requires Consistent(s)
    ensures var r := Record(s, query, prompt, answer);
            && |r.history| % 2 == 0
            && (forall i :: 0 <= i < |r.history| ==>
                  r.history[i].role == (if i % 2 == 0 then Completion.User else Completion.Assistant))
            && (forall k :: k in r.checklists ==>
                  exists t: string, m: nat :: '_' !in t && m + 2 <= |r.history| && k == ChecklistKey(t, m))
            && r.tokensUsed >= 0.0
  {
    var r := Record(s, query, prompt, answer);
    forall k | k in r.checklists
      ensures exists t: string, m: nat :: '_' !in t && m + 2 <= |r.history| && k == ChecklistKey(t, m)
    {
      var t: string, m: nat :| '_' !in t && m <= |s.history| && k == ChecklistKey(t, m);
      assert m + 2 <= |r.history|;
    }
  }

  lemma ShowAnswerConsistent(r: State, inputs: Inputs, world: World, prompt: string, answer: string)
    requires '_' !in inputs.topic && |r.history| >= 2
    requires |r.history| % 2 == 0
    requires forall i :: 0 <= i < |r.history| ==>
               r.history[i].role == (if i % 2 == 0 then Completion.User else Completion.Assistant)
    requires forall k :: k in r.checklists ==>
               exists t: string, m: nat :: '_' !in t && m + 2 <= |r.history| && k == ChecklistKey(t, m)
    requires r.tokensUsed >= 0.0
    ensures Consistent(ShowAnswer(r, inputs, world, prompt, answer).state)
  {
    var out := ShowAnswer(r, inputs, world, prompt, answer).state;
    var key := ChecklistKey(inputs.topic, |r.history|);
    ShowAnswerFrame(r, inputs, world, prompt, answer);
    forall k | k in out.checklists
      ensures exists t: string, m: nat :: '_' !in t && m <= |out.history| && k == ChecklistKey(t, m)
    {
      if k == key {
        assert '_' !in inputs.topic && |r.history| <= |out.history| && k == ChecklistKey(inputs.topic, |r.history|);
      } else {
        var t: string, m: nat :| '_' !in t && m + 2 <= |r.history| && k == ChecklistKey(t, m);
      }
    }
  }

  /**
   * In a consistent session the checklist block never fails: the key of a
   * new answer is always fresh, so its entry starts all unticked with one
   * mark per item, and the progress never exceeds one.
   */
  lemma NoChecklistFailure(s: State, action: Action, inputs: Inputs, world: World)
    requires Consistent(s) && '_' !in inputs.topic
    ensures !Step(s, action, inputs, world).outcome.ChecklistFailure?
  {
    NextKeyFresh(s, inputs.topic);
    FreshKeyNoFailure(s, action, inputs, world);
  }

  lemma FreshKeyNoFailure(s: State, action: Action, inputs: Inputs, world: World)
    requires ChecklistKey(inputs.topic, |s.history| + 2) !in s.checklists
    ensures !Step(s, action, inputs, world).outcome.ChecklistFailure?
  {
    if action.Ask? && (action.generate || action.simplify || action.expand) {
      ProcessNoFailure(s, action.simplify, action.expand, inputs, world);
    }
  }

  lemma ProcessNoFailure(s: State, simplify: bool, expand: bool, inputs: Inputs, world: World)
    requires ChecklistKey(inputs.topic, |s.history| + 2) !in s.checklists
    ensures !Process(s, simplify, expand, inputs, world).outcome.ChecklistFailure?
  {
    if inputs.query != [] && inputs.apiKey != [] {
      var prompt := FinalPrompt(inputs.topic, inputs.query, s.profile, simplify, expand);
      ConcludeNoFailure(s, inputs, world, prompt, Answer(s, simplify, expand, inputs, world));
    }
  }

  lemma ConcludeNoFailure(s: State, inputs: Inputs, world: World, prompt: string, response: Option<string>)
    requires ChecklistKey(inputs.topic, |s.history| + 2) !in s.checklists
    ensures !Conclude(s, inputs, world, prompt, response).outcome.ChecklistFailure?
  {
    if response.Some? && response.value != [] {
      FreshKeyShown(Record(s, inputs.query, prompt, response.value), inputs, world, prompt, response.value);
    }
  }

  /** With a fresh key the entry is a full set of marks and the count is in range. */
  lemma FreshKeyShown(r: State, inputs: Inputs, world: World, prompt: string, answer: string)
    requires ChecklistKey(inputs.topic, |r.history|) !in r.checklists
    ensures !ShowAnswer(r, inputs, world, prompt, answer).outcome.ChecklistFailure?
  {
    var checklist := Checklist.ExtractChecklistItems(answer);
    if checklist.Some? {
      var n := |checklist.value|;
      var key := ChecklistKey(inputs.topic, |r.history|);
      var marks := Ticked(key, seq(n, _ => false), n, world.checkbox);
      assert |marks| == n;
    }
  }

  /** One pass of the page: what the user did, the widgets, and the world. */
  datatype Pass = Pass(action: Action, inputs: Inputs, world: World)

  /** The session after a sequence of passes. */
  function Run(s: State, passes: seq<Pass>): State
    decreases |passes|
  {
    if passes == [] then s
    else Run(Step(s, passes[0].action, passes[0].inputs, passes[0].world).state, passes[1..])
  }

  /**
   * Starting from a first visit, whatever the user does with topics picked
   * in the selector, the session stays consistent and the checklist block
   * never fails, however often the history is cleared.
   */
  lemma {:induction false} RunConsistent(s: State, passes: seq<Pass>)
    requires Consistent(s)
    requires forall i :: 0 <= i < |passes| ==> passes[i].inputs.topic in TopicMap.Values
    ensures Consistent(Run(s, passes))
    ensures forall i :: 0 <= i < |passes| ==>
              var p := passes[i];
              !Step(Run(s, passes[..i]), p.action, p.inputs, p.world).outcome.ChecklistFailure?
    decreases |passes|
  {
    if passes != [] {
      var p := passes[0];
      SelectorTopic(p.inputs.topic);
      var next := Step(s, p.action, p.inputs, p.world).state;
      StepConsistent(s, p.action, p.inputs, p.world);
      NoChecklistFailure(s, p.action, p.inputs, p.world);
      RunConsistent(next, passes[1..]);
      forall i | 0 <= i < |passes|
        ensures var q := passes[i];
                !Step(Run(s, passes[..i]), q.action, q.inputs, q.world).outcome.ChecklistFailure?
      {
        if i > 0 {
          RunPrefix(s, passes, i);
        }
      }
    }
  }

  /** A topic the selector can produce holds no `_`. */
  lemma SelectorTopic(topic: string)
    requires topic in TopicMap.Values
    ensures '_' !in topic
  {
    TopicMapCoversTemplates();
  }

  /** The passes before position `i` are the first pass, then the others. */
  lemma RunPrefix(s: State, passes: seq<Pass>, i: nat)
    requires 0 < i < |passes|
    ensures Run(s, passes[..i])
            == Run(Step(s, passes[0].action, passes[0].inputs, passes[0].world).state, passes[1..][..i - 1])
    ensures passes[i] == passes[1..][i - 1]
  {
    assert passes[..i][0] == passes[0];
    assert passes[..i][1..] == passes[1..][..i - 1];
  }
}

=== FILE: utils.dfy ===
/**
 * The small helpers of utils.py: the API-key format heuristic, the token
 * estimate and the markdown export of one answer.
 */
module Utils {
  import opened Wrappers
  import opened PyStr
  import Checklist

  /** Keys of at most this length are rejected. */
  const MaxRejectedKeyLength := 20

  /**
   * `validate_api_key_format`: longer than 20 characters and without a
   * space; other whitespace such as a tab is not looked at.
   */
  function ValidateApiKeyFormat(key: string): (ok: bool)
    ensures ok <==> |key| >= 21 && forall i :: 0 <= i < |key| ==> key[i] != ' '
  {
    |key| > MaxRejectedKeyLength && ' ' !in key
  }

  /** The two length boundaries of the format check. */
  lemma ApiKeyAcceptance(key: string)
    ensures |key| == 20 ==> !ValidateApiKeyFormat(key)
    ensures |key| == 21 && (forall i :: 0 <= i < |key| ==> key[i] != ' ') ==> ValidateApiKeyFormat(key)
  {
  }

  /** A tab does not make a key invalid, a space does. */
  lemma ApiKeyWhitespaceExamples()
    ensures ValidateApiKeyFormat("sk-or-v1-\tabcdefghijkl")
    ensures !ValidateApiKeyFormat("sk-or-v1- abcdefghijkl")
    ensures !ValidateApiKeyFormat("sk-or-v1-abcdefghijk")
  {
    assert "sk-or-v1- abcdefghijkl"[9] == ' ';
  }

  /**
   * `estimate_tokens`: one and a half tokens per whitespace-separated word
   * (`len(text.split()) * 1.5`). It is never negative, and it is zero exactly
   * for blank text.
   */
  function EstimateTokens(text: string): (r: real)
    ensures r == 1.5 * WordStarts(text, true) as real
    ensures r >= 0.0
    ensures r == 0.0 <==> AllSpace(text)
  {
    SplitCountsWordStarts(text);
    |Split(text)| as real * 1.5
  }

  /** Token estimates add up over texts joined by whitespace. */
  lemma EstimateTokensJoin(a: string, sep: char, b: string)
    requires IsSpace(sep)
    ensures EstimateTokens(a + [sep] + b) == EstimateTokens(a) + EstimateTokens(b)
  {
    StartsJoin(a, sep, b, true);
  }

  lemma {:induction false} StartsJoin(a: string, sep: char, b: string, afterSpace: bool)
    requires IsSpace(sep)
    ensures WordStarts(a + [sep] + b, afterSpace) == WordStarts(a, afterSpace) + WordStarts(b, true)
    decreases |a|
  {
    if a == [] {
      assert (a + [sep] + b)[1..] == b;
    } else {
      assert (a + [sep] + b)[1..] == a[1..] + [sep] + b;
      StartsJoin(a[1..], sep, b, IsSpace(a[0]));
    }
  }

  const Title := "# AgriSmart Farming Advice\n\n"
  const ChecklistHeading := "### Checklist:\n"
  const Unchecked := "- [ ] "
  const GeneratedOn := "\nGenerated on "

  /** The title and the topic line. */
  function TopicBlock(topic: string): string {
    Title + "### Topic: " + topic + "\n"
  }

  /** The question under its heading, then a blank line. */
  function QuestionBlock(question: string): string {
    "### Question:\n" + question + "\n\n"
  }

  /** The answer under its heading, then a blank line. */
  function AnswerBlock(answer: string): string {
    "### Answer:\n" + answer + "\n\n"
  }

  /** The fixed part of the document before the checklist. */
  function Preamble(question: string, answer: string, topic: string): string {
    TopicBlock(topic) + QuestionBlock(question) + AnswerBlock(answer)
  }

  /** One unchecked checkbox line per item, in order. */
  function CheckboxLines(items: seq<string>): string {
    if items == [] then [] else Unchecked + items[0] + "\n" + CheckboxLines(items[1..])
  }

  /** `if checklist:` — both `None` and the empty list are falsy. */
  predicate Truthy(checklist: Option<seq<string>>) {
    checklist.Some? && checklist.value != []
  }

  /** The checklist section: present only for a non-empty checklist. */
  function ChecklistSection(checklist: Option<seq<string>>): (section: string)
    ensures section == [] <==> !Truthy(checklist)
    ensures Truthy(checklist) ==>
              |section| > |ChecklistHeading| && section[..|ChecklistHeading|] == ChecklistHeading
  {
    if Truthy(checklist) then ChecklistHeading + CheckboxLines(checklist.value) else []
  }

  /**
   * `export_to_markdown`, with the clock reading passed in as `timestamp`:
   * the preamble, the optional checklist section and the generation line.
   */
  function ExportToMarkdown(question: string, answer: string, topic: string,
                            checklist: Option<seq<string>>, timestamp: string): string {
    var pre, footer := Preamble(question, answer, topic), GeneratedOn + timestamp;
    pre + ChecklistSection(checklist) + footer
  }

  /**
   * The layout of the exported document: it opens with the title, the
   * preamble comes first, the checklist section (possibly empty) sits in
   * the middle and the generation line closes it.
   */
  lemma ExportLayout(question: string, answer: string, topic: string,
                     checklist: Option<seq<string>>, timestamp: string)
    ensures var md := ExportToMarkdown(question, answer, topic, checklist, timestamp);
            var pre, footer := Preamble(question, answer, topic), GeneratedOn + timestamp;
            && |md| == |pre| + |ChecklistSection(checklist)| + |footer|
            && md[..|Title|] == Title
            && md[..|pre|] == pre
            && md[|pre|..|md| - |footer|] == ChecklistSection(checklist)
            && md[|md| - |footer|..] == footer
  {
    var pre, footer := Preamble(question, answer, topic), GeneratedOn + timestamp;
    var md := pre + ChecklistSection(checklist) + footer;
    Parts(pre, ChecklistSection(checklist), footer);
    assert pre[..|Title|] == Title;
    assert md[..|Title|] == md[..|pre|][..|Title|];
  }

  /**
   * The loop of `export_to_markdown` that appends one `- [ ] item` line per
   * item, as the source writes it.
   */
  method AppendCheckboxes(md: string, items: seq<string>) returns (out: string)
    ensures out == md + CheckboxLines(items)
    ensures |out| == |md| + |CheckboxLines(items)|
  {
    out := md;
    var i := 0;
    while i < |items|
      invariant 0 <= i <= |items|
      invariant out + CheckboxLines(items[i..]) == md + CheckboxLines(items)
    {
      assert items[i..][1..] == items[i + 1..];
      out := out + Unchecked + items[i] + "\n";
      i := i + 1;
    }
    assert items[i..] == [];
  }

  /**
   * The question, the answer and the topic appear verbatim under their
   * headings, at fixed positions.
   */
  lemma ExportShowsQuestionAndAnswer(question: string, answer: string, topic: string,
                                     checklist: Option<seq<string>>, timestamp: string)
    ensures var md := ExportToMarkdown(question, answer, topic, checklist, timestamp);
            var q := |Title| + |"### Topic: "| + |topic| + 1;
            var a := q + |"### Question:\n"| + |question| + 2;
            && md[q..q + |"### Question:\n" + question|] == "### Question:\n" + question
            && md[a..a + |"### Answer:\n" + answer|] == "### Answer:\n" + answer
            && md[|Title| + |"### Topic: "|..|Title| + |"### Topic: "| + |topic|] == topic
  {
    var md := ExportToMarkdown(question, answer, topic, checklist, timestamp);
    var pre := Preamble(question, answer, topic);
    var q := |Title| + |"### Topic: "| + |topic| + 1;
    var a := q + |"### Question:\n"| + |question| + 2;
    ExportLayout(question, answer, topic, checklist, timestamp);
    PreambleParts(question, answer, topic);
    SliceInPrefix(md, pre, q, q + |"### Question:\n" + question|);
    SliceInPrefix(md, pre, a, a + |"### Answer:\n" + answer|);
    SliceInPrefix(md, pre, |Title| + |"### Topic: "|, |Title| + |"### Topic: "| + |topic|);
  }

  /** Where the topic, the question and the answer sit in the preamble. */
  lemma PreambleParts(question: string, answer: string, topic: string)
    ensures var pre := Preamble(question, answer, topic);
            var q := |Title| + |"### Topic: "| + |topic| + 1;
            var a := q + |"### Question:\n"| + |question| + 2;
            && |pre| == a + |"### Answer:\n"| + |answer| + 2
            && pre[q..q + |"### Question:\n" + question|] == "### Question:\n" + question
            && pre[a..a + |"### Answer:\n" + answer|] == "### Answer:\n" + answer
            && pre[|Title| + |"### Topic: "|..|Title| + |"### Topic: "| + |topic|] == topic
  {
    var tb, qb, ab := TopicBlock(topic), QuestionBlock(question), AnswerBlock(answer);
    Parts(tb, qb, ab);
    SliceInPrefix(tb + qb + ab, tb, |Title| + |"### Topic: "|, |Title| + |"### Topic: "| + |topic|);
    MiddleAt(Title + "### Topic: ", topic, "\n");
    MiddleAt(tb, qb, ab);
    MiddleAt(tb + qb, ab, []);
  }

  /**
   * Reading the exported checklist back: `extract_checklist_items` on the
   * rendered checkbox lines returns the very items that were rendered.
   */
  lemma {:induction false} CheckboxLinesRoundTrip(items: seq<string>)
    requires forall k :: 0 <= k < |items| ==> items[k] != [] && '\n' !in items[k]
    ensures Checklist.Items(Checklist.Checkbox, Checklist.Lines(CheckboxLines(items))) == items
    decreases |items|
  {
    if items == [] {
      assert Checklist.Lines([]) == [[]];
    } else {
      var line := Unchecked + items[0];
      assert '\n' !in line;
      assert CheckboxLines(items) == line + "\n" + CheckboxLines(items[1..]);
      Checklist.LinesCons(line, CheckboxLines(items[1..]));
      Checklist.CheckboxLineItem(items[0]);
      CheckboxLinesRoundTrip(items[1..]);
    }
  }

  /**
   * Exporting a checklist and extracting it again gives back the same
   * items: the section heading holds no checkbox, and each rendered line
   * holds exactly one.
   */
  lemma ExportedChecklistRoundTrip(items: seq<string>)
    requires items != []
    requires forall k :: 0 <= k < |items| ==> items[k] != [] && '\n' !in items[k]
    ensures Checklist.ExtractChecklistItems(ChecklistSection(Some(items))) == Some(items)
  {
    var section := ChecklistSection(Some(items));
    var heading := "### Checklist:";
    assert section == heading + "\n" + CheckboxLines(items);
    Checklist.LinesCons(heading, CheckboxLines(items));
    Checklist.NoHyphenNoCheckbox(heading);
    CheckboxLinesRoundTrip(items);
    assert Checklist.Items(Checklist.Checkbox, Checklist.Lines(section)) == items;
    Checklist.ExtractByLines(section);
  }
}

=== FILE: wrappers.dfy ===
/** Python's `None`-or-value results, as a datatype. */
module Wrappers {

  datatype Option<+T> = None | Some(value: T) {

    /** Returns the value held in Some, or the default when None. */
    function GetOr(default: T): T {
      match this
      case Some(v) => v
      case None() => default
    }

    /** The value as a sequence of zero or one elements. */
    function ToSeq(): seq<T> {
      match this
      case Some(v) => [v]
      case None() => []
    }
  }

  function Min(a: int, b: int): int {
    if a <= b then a else b
  }

  /** Concatenation regroups freely; stated once so that larger proofs need not rediscover it. */
  lemma AppendAssoc<T>(a: seq<T>, b: seq<T>, c: seq<T>)
    ensures a + (b + c) == (a + b) + c
  {
  }

  /** An empty middle part vanishes. */
  lemma AppendEmpty<T>(a: seq<T>, b: seq<T>)
    ensures a + [] + b == a + b
  {
  }

  /** The middle of three concatenated parts sits right after the first. */
  lemma MiddleAt<T>(a: seq<T>, b: seq<T>, c: seq<T>)
    ensures |a| + |b| <= |a + b + c| && (a + b + c)[|a|..|a| + |b|] == b
  {
    assert (a + b + c)[|a|..|a| + |b|] == b;
  }

  /** Each of three concatenated parts can be sliced back out. */
  lemma Parts<T>(a: seq<T>, b: seq<T>, c: seq<T>)
    ensures var m := a + b + c;
            && m[..|a|] == a && m[|a|..|m| - |c|] == b && m[|m| - |c|..] == c
  {
    var m := a + b + c;
    assert m[..|a|] == a;
    assert m[|a|..|m| - |c|] == b;
  }

  /** A slice inside a known prefix is the same slice of that prefix. */
  lemma SliceInPrefix<T>(m: seq<T>, p: seq<T>, i: nat, j: nat)
    requires |p| <= |m| && m[..|p|] == p && i <= j <= |p|
    ensures m[i..j] == p[i..j]
  {
    assert forall k :: i <= k < j ==> m[k] == m[..|p|][k];
  }
}
